=== FILE: README.md ===
# Personal trainer pages: a Dafny model of their data logic

The personal trainer front end is a set of React pages over a REST service
that stores customers and their trainings. Most of it is UI. A few pure,
sequential computations sit inside the pages, and this project models those
as pure Dafny functions over immutable sequences and proves what they
promise:

- **Customer list** (`CustomersPage.tsx`). Loading gives each customer the
  last `/`-segment of its self link as its id. The search trims and
  lower-cases the term, then keeps the customers whose space-joined members
  contain it. The CSV export quotes every member with `JSON.stringify`, so
  its escaping follows section 7 of RFC 8259. After a successful delete,
  update or create, the page updates its local list.
- **Statistics** (`StatisticsPage.tsx`). The page keeps the trainings inside
  an inclusive whole-day range. It sums their minutes per trimmed activity,
  sorted largest first by a stable sort, and per `YYYY-MM-DD` day, sorted
  ascending. It shows the top three activities as cards. Its Activity/Minutes
  CSV quotes names as section 2, rules 6 and 7, of RFC 4180 prescribe.
- **Training delete** (`TrainingsPage.tsx`). Each row passes a value to the
  delete handler: the training's `id`, else the last segment of its self
  link. The handler uses the by-id endpoint for a number or an all-digit
  text, and deletes by URL otherwise.
- **Calendar** (`CalendarPage.tsx`). The page makes one event per training.
  Each event ends `duration` × 60000 ms after its start. Its title is
  `activity — firstname lastname`, trimmed.

Modules: `Values` holds JavaScript's loosely typed member values and the
Option and Result types. `Strings` holds `trim`, `toLowerCase`, `includes`,
`join`, `split`, decimal rendering and string order. `JsonString` is
`JSON.stringify` on strings, with a reader for its output. `Sequences`
holds the subsequence order. `Customers` and `CustomersCsv` cover the
customer page, and `Records` the training records. `Statistics` and
`ActivityCsv` cover the statistics page, `TrainingDelete` the trainings
page and `Calendar` the calendar page.

Dates are abstracted. A training's date arrives already parsed as a
`Moment`: the instant in milliseconds, the index of its local calendar day,
and its `YYYY-MM-DD` key. The statistics page parses with dayjs and the
calendar with `new Date(t.date)`. The two can read a date-only string
differently (local midnight against UTC midnight). Both parsers are
abstracted into the same given `ms`, and dayjs's day and formatting into
`day` and `dayKey`. The user's answer to `window.confirm`, the outcome
of a delete request, and the `String(Date.now())` fallback id are
parameters.

## Model

| member | source | states |
|---|---|---|
| `Customers.LoadCustomers` | src/pages/CustomersPage.tsx:83-97 | a missing `_embedded.customers` gives an empty list; otherwise loading succeeds exactly when every record has a self link, and then each customer is its record with the link's last segment as id; a failure shows "Failed to load customers" |
| `Customers.WithIdsSpec` | src/pages/CustomersPage.tsx:84-92 | the id derivation succeeds iff every record has a self link, and pairs record i with the last segment of its own link |
| `Strings.LastSegmentIsLastSplitPart` | src/pages/CustomersPage.tsx:86-87 | the derived id equals the last element of `href.split('/')` |
| `Strings.LastSegment` | src/pages/CustomersPage.tsx:85-87 | the id is a suffix of the link without `/`, and it is preceded by `/` unless it is the whole link |
| `Customers.IdFromExampleLink` | src/pages/CustomersPage.tsx:85-87 | the link `https://api/customers/2` gives the id `2` |
| `Customers.FilterRows` | src/pages/CustomersPage.tsx:183-201 | the result is an order-preserving subsequence of the list; a customer is in it iff it is in the list and the term is blank or occurs in its lower-cased, space-joined searchable members; every copy of a kept customer stays, and none of a dropped one |
| `Strings.Lower` | src/pages/CustomersPage.tsx:198 | `toLowerCase` keeps the length and maps every character on its own |
| `Strings.Split` | src/pages/CustomersPage.tsx:86 | `split` at one character gives at least one part, no part holds the separator, and joining the parts with it gives the text back |
| `Strings.Join` | src/pages/CustomersPage.tsx:197 | `parts.join(sep)` puts `sep` between neighbouring parts; `Strings.SplitJoin` shows that splitting at a separator the parts avoid undoes it |
| `Strings.SplitJoin` | src/pages/CustomersPage.tsx:207 | splitting the joined parts at a one-character separator that no part holds gives the parts back |
| `Customers.FilterBlankSearch` | src/pages/CustomersPage.tsx:184-185 | an empty or white-space-only search returns the list unchanged |
| `Customers.FilterKeepsOccurrences` | src/pages/CustomersPage.tsx:187-200 | for any other search, a customer is kept iff the trimmed, lower-cased term occurs at some index of its searchable text |
| `Strings.ContainsIffOccurs` | src/pages/CustomersPage.tsx:199 | `includes` holds iff the term occurs at some index |
| `Customers.FilterIdempotent` | src/pages/CustomersPage.tsx:187-200 | filtering the filtered list again changes nothing |
| `Customers.FilterIgnoresCase` | src/pages/CustomersPage.tsx:184 | searching for the lower-cased term gives the same rows as the term itself |
| `Strings.Trim` | src/pages/CustomersPage.tsx:184 | `trim` leaves no white space at either end and is empty exactly for all-white text |
| `Strings.TrimPadded` | src/pages/StatisticsPage.tsx:51 | `trim` removes exactly the white padding around a trimmed core |
| `Customers.RemoveById` | src/pages/CustomersPage.tsx:153 | delete keeps, in order, exactly the customers whose id differs, and removes as many rows as carried that id |
| `Customers.UpdateById` | src/pages/CustomersPage.tsx:229 | update keeps the length, every id and link; rows with the edited id show the form's seven values; every other row is unchanged |
| `Customers.CreatedId` | src/pages/CustomersPage.tsx:240-241 | a created customer's id is its non-empty link's last segment, else the clock fallback |
| `Customers.PrependCreated` | src/pages/CustomersPage.tsx:242 | create puts one row in front, holding the created record and its derived id, and leaves all earlier rows after it unchanged |
| `CustomersCsv.ExportCsv` | src/pages/CustomersPage.tsx:203-207 | the export splits into exactly one more line than the search shows rows: the header, then each shown row in order, reading back as its member texts |
| `CustomersCsv.CsvLines` | src/pages/CustomersPage.tsx:205-207 | header plus rows joined by line breaks split back into exactly those lines, since no quoted field holds a raw line break |
| `CustomersCsv.CsvText` | src/pages/CustomersPage.tsx:207 | splitting the text at line breaks gives back the header line and one line per row, in order |
| `CustomersCsv.HeaderLineIsJoinedColumns` | src/pages/CustomersPage.tsx:205-207 | the header is the seven column names joined by commas |
| `CustomersCsv.ParseQuotedRow` | src/pages/CustomersPage.tsx:206 | a line of JSON-quoted texts joined by commas reads back as the texts, commas and quotes inside them included |
| `CustomersCsv.QuotedLineIsJoin` | src/pages/CustomersPage.tsx:206 | the line is the quoted member texts joined by commas |
| `CustomersCsv.MissingMemberIsEmptyLiteral` | src/pages/CustomersPage.tsx:206 | a `null` or `undefined` member is exported as `""` |
| `JsonString.EscapeChar` | src/pages/CustomersPage.tsx:206 | inside the quotes `"` is written `\"` and `\` is written `\\`, every other character from U+0020 on stands for itself, and a control character becomes a backslash escape, so no raw control character is written |
| `JsonString.Quote` | src/pages/CustomersPage.tsx:206 | a quoted member starts and ends with `"` and holds no control character, so never a line break |
| `JsonString.QuoteRoundTrip` | src/pages/CustomersPage.tsx:206 | reading the literal `JSON.stringify` writes gives back the text, and whatever followed it is left untouched |
| `Statistics.InRangeWholeDays` | src/pages/StatisticsPage.tsx:45-48 | when the day index follows time, the range test is exactly start day <= training day <= end day, each bound optional, whole days included |
| `Statistics.InRange` | src/pages/StatisticsPage.tsx:47 | with no bounds every training passes; a training on a bound's own day passes that bound; one before the start instant on another day, or after the end instant on another day, fails |
| `Statistics.InRangeOnly` | src/pages/StatisticsPage.tsx:45-48 | the in-range trainings are an order-preserving subsequence holding exactly the trainings that pass the test |
| `Statistics.InRangeOnlyCounts` | src/pages/StatisticsPage.tsx:45-48 | the filter keeps every copy of an in-range training and no copy of any other |
| `Statistics.ActivityKey` | src/pages/StatisticsPage.tsx:51 | the key is trimmed; a missing activity is `Unknown`; a present one gives the empty key exactly when it is blank |
| `Statistics.ActivityKeyPadded` | src/pages/StatisticsPage.tsx:51 | activity names that differ only in surrounding white space share a key |
| `Statistics.Add` | src/pages/StatisticsPage.tsx:53 | adding to the aggregate adds the minutes to that key only, adds the key, and keeps keys distinct |
| `Statistics.AddPlacement` | src/pages/StatisticsPage.tsx:53-55 | a new key gets a row at the end, as a new property of an object comes last in `Object.entries`; a key seen before leaves every row's key in place |
| `Statistics.Group` | src/pages/StatisticsPage.tsx:49-54 | the aggregate has distinct keys, the entries' keys, each key's total minutes, and the same grand total |
| `Statistics.GroupedEntries` | src/pages/StatisticsPage.tsx:62-66 | grouping trainings under a key gives exactly the keys of the trainings, each holding the total contribution of the trainings with that key |
| `Statistics.Aggregate` | src/pages/StatisticsPage.tsx:49-54 | the loop's object holds one row per key of the trainings, keys distinct, each key's total, and the grand total of the trainings |
| `Statistics.FirstIndex` | src/pages/StatisticsPage.tsx:55 | the position of the first entry with a key, or the length when there is none |
| `Statistics.GroupFirstSeen` | src/pages/StatisticsPage.tsx:49-55 | the aggregate lists its keys in the order of their first entries, as `Object.entries` lists an object's string keys in insertion order |
| `Statistics.EntriesFirstIndex` | src/pages/StatisticsPage.tsx:50-53 | the first entry of a key is the entry of the first training filed under that key |
| `Statistics.SortDesc` | src/pages/StatisticsPage.tsx:55-57 | the activity sort gives a permutation in non-increasing minutes |
| `Statistics.SortDescStable` | src/pages/StatisticsPage.tsx:57 | rows with equal minutes keep their first-seen order |
| `Statistics.SortDescKeeps` | src/pages/StatisticsPage.tsx:55-57 | sorting loses no minutes and no key and keeps keys distinct |
| `Statistics.SortAsc` | src/pages/StatisticsPage.tsx:67-69 | the day sort gives a permutation of the rows |
| `Statistics.SortAscKeeps` | src/pages/StatisticsPage.tsx:67-69 | on distinct keys the day sort gives strictly ascending keys and loses no minutes and no key |
| `Statistics.AscendingUnique` | src/pages/StatisticsPage.tsx:68 | two strictly ascending arrangements of the same rows are equal, since the comparator is a strict order |
| `Statistics.SortAscUnique` | src/pages/StatisticsPage.tsx:67-69 | on distinct keys, any ascending permutation is the day sort's result, whatever algorithm the browser's sort uses |
| `Statistics.ActivityRows` | src/pages/StatisticsPage.tsx:45-57 | activity rows: distinct keys, exactly the activity keys of in-range trainings, non-increasing minutes, each key's in-range total, rows of equal minutes in the aggregate's order |
| `Statistics.ActivityTiesFirstSeen` | src/pages/StatisticsPage.tsx:49-57 | of two activities with equal totals, the one whose first in-range training comes first is listed first |
| `Statistics.TiedActivitiesExample` | src/pages/StatisticsPage.tsx:53-57 | Running 30 then Yoga 30 stay in that order through grouping and sorting |
| `Statistics.DayRows` | src/pages/StatisticsPage.tsx:62-69 | day rows: distinct keys, exactly the day keys of in-range trainings, strictly ascending, each day's in-range total |
| `Statistics.ActivityRowTotal` | src/pages/StatisticsPage.tsx:49-57 | every activity row's minutes are the total of the in-range trainings filed under its key |
| `Statistics.DayRowTotal` | src/pages/StatisticsPage.tsx:62-69 | every day row's minutes are the total of the in-range trainings on that day |
| `Statistics.Conservation` | src/pages/StatisticsPage.tsx:49-66 | with every activity name an ordinary key, activity rows and day rows add up to the same total, that of the in-range trainings |
| `Statistics.ObjectAdd` | src/pages/StatisticsPage.tsx:53 | the page's assignment on `{}`: the key `__proto__` leaves the rows unchanged; every key that is not an `Object.prototype` member behaves as `Add` |
| `Statistics.ObjectGroup` | src/pages/StatisticsPage.tsx:49-54 | the page's loop on `{}` agrees with `Group` whenever no entry has the key `__proto__`, provided no key is another `Object.prototype` member |
| `Statistics.ActivityRowsAsWritten` | src/pages/StatisticsPage.tsx:45-57 | the activity rows as the page computes them agree with `ActivityRows` whenever no in-range activity is `__proto__`, provided no activity is another `Object.prototype` member |
| `Statistics.ProtoActivityLost` | src/pages/StatisticsPage.tsx:49-66 | one 30-minute `__proto__` training: the page's activity rows sum to 0 while its day rows sum to 30; `ActivityRows` keeps the 30 |
| `Statistics.Top3` | src/pages/StatisticsPage.tsx:113 | the cards show exactly the first min(3, n) rows, in order |
| `Statistics.TopCardsDominate` | src/pages/StatisticsPage.tsx:113 | on sorted rows, no hidden activity has more minutes than a shown one |
| `ActivityCsv.EscapeCsv` | src/pages/StatisticsPage.tsx:88 | the field starts and ends with `"` and grows by two plus one per embedded quote |
| `ActivityCsv.EscapeRoundTrip` | src/pages/StatisticsPage.tsx:88 | undoubling the quoted field gives back the value, and reading stops right after its closing quote |
| `ActivityCsv.ExportText` | src/pages/StatisticsPage.tsx:75-78 | the export starts with `Activity,Minutes\n` and reads back as exactly the rows, in order |
| `ActivityCsv.ExportRoundTrip` | src/pages/StatisticsPage.tsx:75-78 | reading `Activity,Minutes\n` and the joined lines gives back every row, in order, names and minutes unchanged |
| `Strings.IntToStringRoundTrip` | src/pages/StatisticsPage.tsx:77 | the minutes written unquoted read back as the same integer |
| `TrainingDelete.HandleDelete` | src/pages/TrainingsPage.tsx:41-58 | a declined confirmation issues nothing; otherwise one request, by id exactly for a number or an all-digit text, by URL otherwise, and a refetch exactly on success, a logged error exactly on failure |
| `TrainingDelete.ByIdIsInteger` | src/pages/TrainingsPage.tsx:46-47 | the by-id endpoint only ever receives the decimal text of an integer |
| `TrainingDelete.NumberAndDigitsAgree` | src/pages/TrainingsPage.tsx:46 | a non-negative number and its decimal text are deleted the same way |
| `TrainingDelete.EmptyAndUndefinedGoByUrl` | src/pages/TrainingsPage.tsx:48-49 | the empty text and `undefined` go to the by-URL call |
| `TrainingDelete.RowTarget` | src/pages/TrainingsPage.tsx:69 | the row passes its `id` when present, else the last element of its self link split on `/`, else `undefined` |
| `Calendar.ToEvents` | src/pages/CalendarPage.tsx:23-28 | exactly one event per training, in input order |
| `Calendar.ToEvent` | src/pages/CalendarPage.tsx:24-25 | an event starts at the training's instant and lasts its contribution in minutes, so a non-numeric duration gives end = start |
| `Calendar.EventSpan` | src/pages/CalendarPage.tsx:24-25 | an event ends no earlier than it starts exactly when its duration is non-numeric or non-negative; a training at a later or equal instant gives an event that starts later or at the same time |
| `Calendar.EventsChronological` | src/pages/CalendarPage.tsx:23-28 | the events are in order of their starts exactly when the trainings are in order of their instants |
| `Calendar.RawTitle` | src/pages/CalendarPage.tsx:26 | the untrimmed title starts with the interpolated activity and ` — `, and ends with the last name (empty without one) |
| `Calendar.Title` | src/pages/CalendarPage.tsx:26 | the title is trimmed and never empty, since the dash is always in it |
| `Calendar.TitleOfFullRecord` | src/pages/CalendarPage.tsx:26 | when the activity does not start and the last name does not end with white space, nothing is trimmed: the title is `activity — firstname lastname` exactly |
| `Calendar.TitleWithoutCustomer` | src/pages/CalendarPage.tsx:26 | a training without a customer is titled `activity —` |
| `Calendar.TitleOfEmptyRecord` | src/pages/CalendarPage.tsx:26 | with neither activity nor customer, the title is `undefined —` |

## Left out

- Network I/O is not modelled: every `fetch`, `src/trainingapi.ts` and HTTP status handling. A load either yields the embedded records or fails. A delete's outcome is a boolean input.
- React state, rendering, dialogs, the DataGrid, AG Grid (its `quickFilterText` matching is library behaviour), Recharts and the calendar widget are not modelled.
- Date parsing and formatting belong to the date libraries. A date arrives as a `Moment`, and invalid dates are not modelled. The calendar's `new Date(t.date)` and the statistics page's `dayjs(t.date)` can disagree on the instant of a date-only string (UTC against local midnight); the model gives both pages the same `ms`. `Statistics.InRangeWholeDays` assumes the day index never runs backwards in time, which holds for one fixed time zone.
- Downloads are not modelled: the Blob, the object URL and the file names. Neither export writes a byte-order mark.
- `window.confirm` is a boolean parameter. The `String(Date.now())` fallback id on create is a parameter, `clockId`.
- JavaScript numbers are modelled as integers: durations, minutes and milliseconds. Fractions, `Infinity` and `-0` are not modelled, and neither is `String(n)` for non-integers. Strings.IntToString, TrainingDelete.ByIdIsInteger and TrainingDelete.NumberAndDigitsAgree hold for the page only on exact integers: integers are exact only below 2^53, and `String(n)` is decimal only below 1e21.
- `Strings.Lower` maps only ASCII `A`-`Z` and the Latin-1 capitals to lower case. The rest of Unicode case mapping, and strings whose length changes when lower-cased, are not modelled.
- Strings are sequences of code points, while JavaScript compares UTF-16 code units. The two orders differ only above U+FFFF, which a `YYYY-MM-DD` key never contains.
- `JsonString.ReadEscape` rejects `\u` escapes of surrogate halves. `JSON.stringify` never writes one for text made of code points.
- `Customers.FilterRows` does not come with a proof of the page test's concrete example, where searching `Espoo` keeps only Bob. The general membership property covers it, but evaluating the lower-cased, joined members of that record is beyond the verifier's budget here.
- Records whose members are not strings are not modelled: numbers in a customer member, or an activity that is not a string (where `trim` would throw).
- Records are assumed to carry no member named `id`. In `{ id, ...c }` such a member would override the derived id.
- Statistics.Group, Statistics.AddPlacement, Statistics.GroupFirstSeen, Statistics.ActivityTiesFirstSeen: `Object.entries` lists array-index keys such as `"12"` first, in numeric order, and all other keys in insertion order. These members list every key in first-seen order, so they match the page only when no activity name is an array index.
- Statistics.Group, Statistics.ActivityRows, Statistics.ActivityRowTotal, Statistics.Conservation, Statistics.ObjectAdd, Statistics.ObjectGroup, Statistics.ActivityRowsAsWritten, Statistics.Add, Statistics.AddPlacement, Statistics.Aggregate, Statistics.GroupFirstSeen: the page sums into the object literal `{}`, whose inherited members are visible as keys. The model treats every name as an ordinary key. The `__proto__` case is modelled as written and listed under Findings. For `constructor`, `toString` and the other `Object.prototype` members, the page starts from the inherited function and its row holds a string such as `"function Object() { [native code] }30"`; that is not modelled, and these members treat such names as ordinary keys.
- The trainings page refetches the list after a delete. That refetch is the `refetched` flag; the new list itself comes from the network.
- The code has no training-form validator: the dialog's Save button is disabled only while saving. No validator is modelled.
- An empty activity name stays the empty key; only a missing one becomes `Unknown`. A negative duration counts as itself and is not clamped. The customer CSV escapes quotes with `\"`, not by doubling them.

## Findings

| source | as written | input that shows it | evidently intended | confidence | as-written member | corrected member |
|---|---|---|---|---|---|---|
| src/pages/StatisticsPage.tsx:49-53 | `agg` is the object literal `{}`; `agg['__proto__'] ?? 0` reads the prototype, and assigning the resulting string to `__proto__` is ignored | one in-range training, activity `__proto__`, 30 minutes: the activity chart has no row, while the daily chart shows 30 | every activity name is its own key, so both charts add up to the same total | high on the JavaScript semantics; not executed | `Statistics.ProtoActivityLost` (with `Statistics.ActivityRowsAsWritten`) | `Statistics.ActivityRows` (with `Statistics.Conservation`) |

=== FILE: activity_csv.dfy ===
/** The statistics page's CSV download: a header line, then one line per
    activity row with the activity quoted as section 2, rules 6 and 7, of
    RFC 4180 prescribe (the field in double quotes, each embedded double
    quote doubled) and the minutes unquoted. */
module ActivityCsv {
  import opened Values
  import opened Strings
  import opened Statistics

  /** `s.replaceAll('"', '""')`. */
  function DoubleQuotes(s: string): string
  {
    if |s| == 0 then ""
    else (if s[0] == '"' then "\"\"" else [s[0]]) + DoubleQuotes(s[1..])
  }

  /** The number of double quotes in `s`. */
  function QuoteCount(s: string): nat
  {
    if |s| == 0 then 0 else (if s[0] == '"' then 1 else 0) + QuoteCount(s[1..])
  }

  /** `escapeCsv`: the value in double quotes, each embedded quote doubled,
      so the field grows by two plus one per embedded quote. */
  function EscapeCsv(s: string): (r: string)
    ensures |r| >= 2 && r[0] == '"' && r[|r| - 1] == '"'
    ensures |r| == |s| + QuoteCount(s) + 2
  {
    DoubledLength(s);
    "\"" + DoubleQuotes(s) + "\""
  }

  lemma {:induction false} DoubledLength(s: string)
    ensures |DoubleQuotes(s)| == |s| + QuoteCount(s)
    decreases |s|
  {
    if |s| > 0 {
      DoubledLength(s[1..]);
    }
  }

  // --------------------------------------------------------------- reader

  /** Reads the inside of a quoted field up to its closing quote: a doubled
      quote stands for one quote, a single quote ends the field. Gives the
      value and what follows the closing quote. */
  function ReadQuoted(t: string): (r: Option<(string, string)>)
    ensures r.Some? ==> |r.value.1| < |t|
    decreases |t|
  {
    if |t| == 0 then None
    else if t[0] == '"' then
      if |t| >= 2 && t[1] == '"' then
        match ReadQuoted(t[2..])
        case None => None
        case Some((v, rest)) => Some(("\"" + v, rest))
      else Some(("", t[1..]))
    else
      match ReadQuoted(t[1..])
      case None => None
      case Some((v, rest)) => Some(([t[0]] + v, rest))
  }

  /** Reads one quoted field at the start of `t`. */
  function ReadField(t: string): (r: Option<(string, string)>)
    ensures r.Some? ==> |r.value.1| + 2 <= |t|
  {
    if |t| > 0 && t[0] == '"' then ReadQuoted(t[1..]) else None
  }

  /** Reading the doubled text and a closing quote gives back the text,
      provided what follows does not itself start with a quote. */
  lemma {:induction false} ReadDoubled(s: string, rest: string)
    requires |rest| == 0 || rest[0] != '"'
    ensures ReadQuoted(DoubleQuotes(s) + "\"" + rest) == Some((s, rest))
    decreases |s|
  {
    var t := DoubleQuotes(s) + "\"" + rest;
    if |s| == 0 {
      assert t == "\"" + rest;
      assert t[1..] == rest;
    } else {
      var tail := DoubleQuotes(s[1..]) + "\"" + rest;
      ReadDoubled(s[1..], rest);
      assert [s[0]] + s[1..] == s;
      if s[0] == '"' {
        assert t == "\"\"" + tail;
        assert t[2..] == tail;
      } else {
        assert t == [s[0]] + tail;
        assert t[1..] == tail;
      }
    }
  }

  /** The round trip of `escapeCsv`: the quoted field reads back as the
      original value, and reading stops right after it. */
  lemma EscapeRoundTrip(s: string, rest: string)
    requires |rest| == 0 || rest[0] != '"'
    ensures ReadField(EscapeCsv(s) + rest) == Some((s, rest))
  {
    ReadDoubled(s, rest);
    assert (EscapeCsv(s) + rest)[1..] == DoubleQuotes(s) + "\"" + rest;
  }

  // --------------------------------------------------------------- export

  /** The first line of the download, with its line break. */
  const Header: string := "Activity,Minutes\n"

  /** `${escapeCsv(r.activity)},${r.minutes}`. */
  function Line(r: Row): string
  {
    EscapeCsv(r.key) + ("," + IntToString(r.minutes))
  }

  function Lines(rows: seq<Row>): (r: seq<string>)
    ensures |r| == |rows|
    ensures forall i | 0 <= i < |rows| :: r[i] == Line(rows[i])
  {
    if |rows| == 0 then [] else [Line(rows[0])] + Lines(rows[1..])
  }

  /** `exportCsv`: the header, then the lines joined by line breaks. */
  function ExportText(rows: seq<Row>): (text: string)
    ensures |Header| <= |text| && text[..|Header|] == Header
    ensures ParseExport(text) == Some(rows)
  {
    ExportRoundTrip(rows);
    Header + Join(Lines(rows), "\n")
  }

  // ---------------------------------------------------------- read back

  predicate IsNumberChar(c: char)
  {
    c == '-' || IsDigit(c)
  }

  /** The length of the longest prefix of `s` made of digits and minus signs. */
  function NumberPrefix(s: string): (n: nat)
    ensures n <= |s|
    ensures forall i | 0 <= i < n :: IsNumberChar(s[i])
    ensures n < |s| ==> !IsNumberChar(s[n])
  {
    if |s| > 0 && IsNumberChar(s[0]) then 1 + NumberPrefix(s[1..]) else 0
  }

  /** A number followed by a non-number character is read up to that character. */
  lemma NumberPrefixOf(num: string, rest: string)
    requires forall i | 0 <= i < |num| :: IsNumberChar(num[i])
    requires |rest| == 0 || !IsNumberChar(rest[0])
    ensures NumberPrefix(num + rest) == |num|
  {
    var n := NumberPrefix(num + rest);
    assert forall i | 0 <= i < |num| :: (num + rest)[i] == num[i];
    assert |rest| > 0 ==> (num + rest)[|num|] == rest[0];
  }

  /** Reads data lines: a quoted activity, a comma, an integer, and then
      either the end of the text or a line break and further lines. */
  function ReadRows(t: string): Option<seq<Row>>
    decreases |t|, 1
  {
    match ReadField(t)
    case None => None
    case Some((k, rest)) => ReadRowsAfter(k, rest)
  }

  /** The rest of a data line after its activity `k`, and the lines after it. */
  function ReadRowsAfter(k: string, rest: string): Option<seq<Row>>
    decreases |rest|, 0
  {
    if |rest| == 0 || rest[0] != ',' then None
    else
      var u := rest[1..];
      var n := NumberPrefix(u);
      match ParseInt(u[..n])
      case None => None
      case Some(m) =>
        if n == |u| then Some([Row(k, m)])
        else if u[n] == '\n' then
          match ReadRows(u[n + 1..])
          case None => None
          case Some(rs) => Some([Row(k, m)] + rs)
        else None
  }

  /** Reads a whole download: the header, then no rows or the data lines. */
  function ParseExport(text: string): Option<seq<Row>>
  {
    if |text| < |Header| || text[..|Header|] != Header then None
    else if |text| == |Header| then Some([])
    else ReadRows(text[|Header|..])
  }

  /** One data line, read at the start of `line + after`: the activity,
      then the comma and the minutes' digits. */
  lemma ReadLine(r: Row, after: string)
    ensures ReadField(Line(r) + after) == Some((r.key, "," + IntToString(r.minutes) + after))
  {
    var num := IntToString(r.minutes);
    EscapeRoundTrip(r.key, "," + num + after);
    assert Line(r) + after == EscapeCsv(r.key) + ("," + num + after);
  }

  /** The data lines built from the front: a line, or a line, a break and the rest. */
  function Body(rows: seq<Row>): string
  {
    if |rows| == 0 then ""
    else if |rows| == 1 then Line(rows[0])
    else Line(rows[0]) + ("\n" + Body(rows[1..]))
  }

  lemma {:induction false} BodyIsJoin(rows: seq<Row>)
    ensures Body(rows) == Join(Lines(rows), "\n")
    decreases |rows|
  {
    if |rows| >= 2 {
      BodyIsJoin(rows[1..]);
      JoinFront(Lines(rows), Line(rows[0]), Lines(rows[1..]), "\n");
    }
  }

  /** The last line ends after its number. */
  lemma ReadLastNumber(k: string, num: string, m: int)
    requires NumberPrefix(num) == |num|
    requires ParseInt(num) == Some(m)
    ensures ReadRowsAfter(k, "," + num) == Some([Row(k, m)])
  {
    var u := ("," + num)[1..];
    assert u == num && u[..|num|] == num;
  }

  /** Any other line ends at the line break after its number. */
  lemma ReadNumberThenMore(k: string, num: string, m: int, tail: string)
    requires NumberPrefix(num + ("\n" + tail)) == |num|
    requires ParseInt(num) == Some(m)
    ensures ReadRowsAfter(k, "," + num + ("\n" + tail)) ==
              match ReadRows(tail)
              case None => None
              case Some(rs) => Some([Row(k, m)] + rs)
  {
    var u := ("," + num + ("\n" + tail))[1..];
    assert u == num + ("\n" + tail);
    assert u[..|num|] == num;
    assert u[|num|] == '\n';
    assert u[|num| + 1..] == tail;
  }

  /** The data lines read back as the rows, whatever the activity names hold. */
  lemma {:induction false} ReadBody(rows: seq<Row>)
    requires |rows| >= 1
    ensures ReadRows(Body(rows)) == Some(rows)
    decreases |rows|
  {
    var r := rows[0];
    var num := IntToString(r.minutes);
    IntToStringRoundTrip(r.minutes);
    if |rows| == 1 {
      ReadLine(r, "");
      NumberPrefixOf(num, "");
      assert Line(r) + "" == Line(r) && num + "" == num && "," + num + "" == "," + num;
      ReadLastNumber(r.key, num, r.minutes);
      assert rows == [r];
    } else {
      var tail := Body(rows[1..]);
      var after := "\n" + tail;
      ReadBody(rows[1..]);
      ReadLine(r, after);
      NumberPrefixOf(num, after);
      ReadNumberThenMore(r.key, num, r.minutes, tail);
      assert [r] + rows[1..] == rows;
    }
  }

  /** The round trip of the download: reading the text gives back every row,
      in order, names and minutes unchanged. */
  lemma ExportRoundTrip(rows: seq<Row>)
    ensures ParseExport(Header + Join(Lines(rows), "\n")) == Some(rows)
  {
    var text := Header + Join(Lines(rows), "\n");
    BodyIsJoin(rows);
    assert text[..|Header|] == Header;
    assert text[|Header|..] == Body(rows);
    if |rows| > 0 {
      ReadBody(rows);
    }
  }
}

=== FILE: calendar.dfy ===
/** The calendar page: one event per training, running from the training's
    instant for its duration, titled with the activity and customer name. */
module Calendar {
  import opened Values
  import opened Strings
  import opened Records

  /** A calendar event; `start` and `end` are instants in milliseconds. */
  datatype Event = Event(title: string, start: int, end: int)

  /** Milliseconds in a minute. */
  const MinuteMs: int := 60000

  /** `t.customer?.firstname ?? ''`. */
  function FirstName(t: Training): string
  {
    match t.customer
    case Some(p) => OrEmpty(p.firstname)
    case None => ""
  }

  /** `t.customer?.lastname ?? ''`. */
  function LastName(t: Training): string
  {
    match t.customer
    case Some(p) => OrEmpty(p.lastname)
    case None => ""
  }

  /** The title before trimming: `${t.activity} — ${first} ${last}`, where
      a missing activity is spelled out as `undefined` or `null`. */
  function RawTitle(t: Training): (r: string)
    ensures var a, dash := Interpolate(t.activity), " \U{2014} ";
              |a| + |dash| <= |r| && r[..|a| + |dash|] == a + dash
    ensures |LastName(t)| <= |r| && r[|r| - |LastName(t)|..] == LastName(t)
  {
    Interpolate(t.activity) + " \U{2014} " + FirstName(t) + " " + LastName(t)
  }

  /** The event title: the raw title without surrounding white space. */
  function Title(t: Training): (r: string)
    ensures IsTrimmed(r)
    ensures |r| > 0
  {
    var raw := RawTitle(t);
    var a := Interpolate(t.activity);
    assert raw[|a| + 1] == '\U{2014}';
    Trim(raw)
  }

  /** The event of one training: it starts at the training's instant and
      lasts `Number(duration) || 0` minutes, so a duration that is not a
      number gives an event of no length. */
  function ToEvent(t: Training): (e: Event)
    ensures e.start == t.date.ms
    ensures e.end - e.start == Contribution(t.duration) * MinuteMs
    ensures t.duration.NotANumber? ==> e.end == e.start
    ensures e.title == Title(t)
  {
    Event(Title(t), t.date.ms, t.date.ms + Contribution(t.duration) * MinuteMs)
  }

  /** `data.map(...)`: exactly one event per training, in the same order. */
  function ToEvents(ts: seq<Training>): (r: seq<Event>)
    ensures |r| == |ts|
    ensures forall i | 0 <= i < |ts| :: r[i] == ToEvent(ts[i])
  {
    seq(|ts|, i requires 0 <= i < |ts| => ToEvent(ts[i]))
  }

  /** Events of later-or-equal trainings start later or at the same time,
      and an event never ends before it starts unless its duration is negative. */
  lemma EventSpan(ts: seq<Training>, i: nat)
    requires i < |ts|
    ensures ToEvents(ts)[i].end >= ToEvents(ts)[i].start <==>
              ts[i].duration.NotANumber? || ts[i].duration.n >= 0
    ensures forall j | 0 <= j < |ts| ::
              ts[i].date.ms <= ts[j].date.ms ==> ToEvents(ts)[i].start <= ToEvents(ts)[j].start
  {
  }

  /** The events are in chronological order of their starts exactly when
      the trainings are in chronological order of their instants. */
  lemma EventsChronological(ts: seq<Training>)
    ensures (forall i, j | 0 <= i < j < |ts| :: ts[i].date.ms <= ts[j].date.ms) <==>
            (forall i, j | 0 <= i < j < |ToEvents(ts)| :: ToEvents(ts)[i].start <= ToEvents(ts)[j].start)
  {
    var es := ToEvents(ts);
    assert forall i | 0 <= i < |ts| :: es[i].start == ts[i].date.ms;
  }

  /** With an activity and a full name that have no white space at their
      outer ends, the title is the raw text, unchanged. */
  lemma TitleOfFullRecord(t: Training)
    requires t.activity.Str? && |t.activity.s| > 0 && !IsWhite(t.activity.s[0])
    requires |LastName(t)| > 0 && !IsWhite(LastName(t)[|LastName(t)| - 1])
    ensures Title(t) == RawTitle(t)
  {
    var raw := RawTitle(t);
    assert raw[0] == t.activity.s[0];
    assert raw[|raw| - 1] == LastName(t)[|LastName(t)| - 1];
    TrimPadded("", raw, "");
    assert "" + raw + "" == raw;
  }

  /** A training without a customer is titled by its activity and the dash alone. */
  lemma TitleWithoutCustomer(t: Training)
    requires t.customer.None?
    requires t.activity.Str? && |t.activity.s| > 0 && IsTrimmed(t.activity.s)
    ensures Title(t) == t.activity.s + " \U{2014}"
  {
    var a := t.activity.s;
    var core := a + " \U{2014}";
    assert RawTitle(t) == "" + core + "  ";
    assert core[|core| - 1] == '\U{2014}' && core[0] == a[0];
    TrimPadded("", core, "  ");
  }

  /** A training with neither activity nor customer is titled `undefined —`. */
  lemma TitleOfEmptyRecord(t: Training)
    requires t.customer.None? && t.activity.Undefined?
    ensures Title(t) == "undefined \U{2014}"
  {
    var core := "undefined \U{2014}";
    assert RawTitle(t) == "" + core + "  ";
    assert !IsWhite(core[0]) && !IsWhite(core[|core| - 1]);
    TrimPadded("", core, "  ");
  }
}

=== FILE: customers.dfy ===
/** The customer list page: the rows it derives from the service's
    response, the search filter, and the local list updates it makes after
    a successful delete, update or create. */
module Customers {
  import opened Values
  import opened Strings
  import opened Sequences

  /** A customer record as the service returns it. `selfHref` is
      `_links.self.href`, `None` when any step of that path is missing. */
  datatype Record = Record(
    firstname: Value,
    lastname: Value,
    streetaddress: Value,
    postcode: Value,
    city: Value,
    email: Value,
    phone: Value,
    selfHref: Option<string>)

  /** A row of the page: `{ id, ...record }`. */
  datatype Customer = Customer(id: string, rec: Record)

  // ------------------------------------------------------------- loading

  /** What the page shows when the list cannot be loaded. */
  const LoadError := "Failed to load customers"

  /** Every record carries a self link. */
  predicate AllLinked(rs: seq<Record>)
  {
    forall i | 0 <= i < |rs| :: rs[i].selfHref.Some?
  }

  /** Each customer is its record with the last `/`-segment of its self link as id. */
  predicate IdsFromLinks(cs: seq<Customer>, rs: seq<Record>)
    requires AllLinked(rs)
  {
    |cs| == |rs| &&
    forall i | 0 <= i < |rs| :: cs[i].rec == rs[i] && cs[i].id == LastSegment(rs[i].selfHref.value)
  }

  /** Gives each record the last `/`-segment of its self link as id; fails
      on the first record without a self link. */
  function WithIds(rs: seq<Record>): (r: Option<seq<Customer>>)
    ensures r.Some? ==> |r.value| == |rs|
  {
    if |rs| == 0 then Some([])
    else if rs[0].selfHref.None? then None
    else
      match WithIds(rs[1..])
      case None => None
      case Some(cs) => Some([Customer(LastSegment(rs[0].selfHref.value), rs[0])] + cs)
  }

  /** The id derivation succeeds exactly when every record has a self link,
      and then pairs each record with its link's last segment. */
  lemma {:induction false} WithIdsSpec(rs: seq<Record>)
    ensures WithIds(rs).Some? <==> AllLinked(rs)
    ensures WithIds(rs).Some? ==> IdsFromLinks(WithIds(rs).value, rs)
    decreases |rs|
  {
    if |rs| > 0 {
      WithIdsSpec(rs[1..]);
      assert forall i | 1 <= i < |rs| :: rs[i] == rs[1..][i - 1];
      if rs[0].selfHref.Some? && WithIds(rs[1..]).Some? {
        var cs := WithIds(rs[1..]).value;
        var r := WithIds(rs).value;
        assert r == [Customer(LastSegment(rs[0].selfHref.value), rs[0])] + cs;
        assert forall i | 1 <= i < |rs| :: r[i] == cs[i - 1];
      }
    }
  }

  /** The list `fetchCustomers` stores: `embedded` is `_embedded.customers`
      (`None` when either step is missing, which yields an empty list). A
      record without a self link makes the id derivation throw, and the page
      shows `LoadError` instead of a list. */
  function LoadCustomers(embedded: Option<seq<Record>>): (r: Result<seq<Customer>, string>)
    ensures embedded.None? ==> r == Success([])
    ensures embedded.Some? ==> (r.Success? <==> AllLinked(embedded.value))
    ensures r.Failure? ==> r.error == LoadError
    ensures r.Success? && embedded.Some? ==> IdsFromLinks(r.value, embedded.value)
  {
    match embedded
    case None => Success([])
    case Some(rs) =>
      WithIdsSpec(rs);
      match WithIds(rs)
      case None => Failure(LoadError)
      case Some(cs) => Success(cs)
  }

  // -------------------------------------------------------------- search

  /** `search.toLowerCase().trim()`. */
  function SearchTerm(search: string): string
  {
    Trim(Lower(search))
  }

  /** The searchable members, in the order they are joined. */
  function SearchFields(c: Customer): seq<string>
  {
    [ OrEmpty(c.rec.firstname), OrEmpty(c.rec.lastname), OrEmpty(c.rec.email),
      OrEmpty(c.rec.phone), OrEmpty(c.rec.city), OrEmpty(c.rec.streetaddress),
      OrEmpty(c.rec.postcode) ]
  }

  /** The text a customer is searched in: the members joined by single spaces, lower-cased. */
  function Haystack(c: Customer): string
  {
    Lower(Join(SearchFields(c), " "))
  }

  predicate Matches(c: Customer, term: string)
  {
    Contains(Haystack(c), term)
  }

  function KeepMatching(cs: seq<Customer>, term: string): (r: seq<Customer>)
    ensures IsSubsequence(r, cs)
    ensures forall c :: c in r <==> c in cs && Matches(c, term)
    ensures forall c :: multiset(r)[c] == if Matches(c, term) then multiset(cs)[c] else 0
  {
    if |cs| == 0 then []
    else
      assert cs == [cs[0]] + cs[1..];
      if Matches(cs[0], term) then [cs[0]] + KeepMatching(cs[1..], term)
      else KeepMatching(cs[1..], term)
  }

  /** `filteredRows`: a blank term shows every customer, any other term
      shows the customers whose joined, lower-cased members contain it, in
      list order. */
  function FilterRows(cs: seq<Customer>, search: string): (r: seq<Customer>)
    ensures IsSubsequence(r, cs)
    ensures forall c :: c in r <==> c in cs && (SearchTerm(search) == "" || Matches(c, SearchTerm(search)))
    ensures forall c :: multiset(r)[c] == if SearchTerm(search) == "" || Matches(c, SearchTerm(search)) then multiset(cs)[c] else 0
  {
    var term := SearchTerm(search);
    if |term| == 0 then SubsequenceOfItself(cs); cs else KeepMatching(cs, term)
  }

  /** An empty or white-space-only search leaves the list unchanged. */
  lemma FilterBlankSearch(cs: seq<Customer>, search: string)
    requires AllWhite(search)
    ensures FilterRows(cs, search) == cs
  {
    LowerKeepsWhite(search);
  }

  /** Any other search keeps exactly the customers whose searchable text
      holds the trimmed, lower-cased term at some position. */
  lemma FilterKeepsOccurrences(cs: seq<Customer>, search: string, c: Customer)
    requires !AllWhite(search)
    ensures c in FilterRows(cs, search) <==>
              c in cs && exists i :: OccursAt(Haystack(c), SearchTerm(search), i)
  {
    LowerKeepsWhite(search);
    ContainsIffOccurs(Haystack(c), SearchTerm(search));
  }

  lemma {:induction false} KeepMatchingIdempotent(cs: seq<Customer>, term: string)
    ensures KeepMatching(KeepMatching(cs, term), term) == KeepMatching(cs, term)
    decreases |cs|
  {
    if |cs| > 0 {
      KeepMatchingIdempotent(cs[1..], term);
      if Matches(cs[0], term) {
        var r := [cs[0]] + KeepMatching(cs[1..], term);
        assert r[1..] == KeepMatching(cs[1..], term);
      }
    }
  }

  /** Filtering the filtered list again changes nothing. */
  lemma FilterIdempotent(cs: seq<Customer>, search: string)
    ensures FilterRows(FilterRows(cs, search), search) == FilterRows(cs, search)
  {
    if SearchTerm(search) != "" {
      KeepMatchingIdempotent(cs, SearchTerm(search));
    }
  }

  /** The case of the search text does not matter: searching for its
      lower-cased form gives the same rows. */
  lemma FilterIgnoresCase(cs: seq<Customer>, search: string)
    ensures FilterRows(cs, Lower(search)) == FilterRows(cs, search)
  {
    LowerIdempotent(search);
  }

  // ------------------------------------------------------- local updates

  /** The number of rows with the given id. */
  function CountId(cs: seq<Customer>, id: string): nat
  {
    if |cs| == 0 then 0 else (if cs[0].id == id then 1 else 0) + CountId(cs[1..], id)
  }

  /** `prev.filter((c) => c.id !== id)` after a successful DELETE. */
  function RemoveById(cs: seq<Customer>, id: string): (r: seq<Customer>)
    ensures IsSubsequence(r, cs)
    ensures forall c :: c in r <==> c in cs && c.id != id
    ensures |r| + CountId(cs, id) == |cs|
  {
    if |cs| == 0 then []
    else if cs[0].id == id then RemoveById(cs[1..], id)
    else [cs[0]] + RemoveById(cs[1..], id)
  }

  /** The values of the seven inputs of the customer dialog at save time. */
  datatype Form = Form(
    firstname: string,
    lastname: string,
    email: string,
    phone: string,
    streetaddress: string,
    postcode: string,
    city: string)

  /** The seven members of `c` hold the form's values. */
  predicate Shows(c: Customer, f: Form)
  {
    && c.rec.firstname == Str(f.firstname) && c.rec.lastname == Str(f.lastname)
    && c.rec.email == Str(f.email) && c.rec.phone == Str(f.phone)
    && c.rec.streetaddress == Str(f.streetaddress) && c.rec.postcode == Str(f.postcode)
    && c.rec.city == Str(f.city)
  }

  /** `{ ...c, ...form }`. */
  function Patch(c: Customer, f: Form): Customer
  {
    c.(rec := c.rec.(
      firstname := Str(f.firstname), lastname := Str(f.lastname),
      email := Str(f.email), phone := Str(f.phone),
      streetaddress := Str(f.streetaddress), postcode := Str(f.postcode),
      city := Str(f.city)))
  }

  /** The list after a successful PUT of the edited customer `id`: every
      row with that id takes the form's values and keeps its id and link;
      every other row is unchanged. */
  function UpdateById(cs: seq<Customer>, id: string, f: Form): (r: seq<Customer>)
    ensures |r| == |cs|
    ensures forall i | 0 <= i < |cs| :: r[i].id == cs[i].id && r[i].rec.selfHref == cs[i].rec.selfHref
    ensures forall i | 0 <= i < |cs| :: cs[i].id == id ==> Shows(r[i], f)
    ensures forall i | 0 <= i < |cs| :: cs[i].id != id ==> r[i] == cs[i]
  {
    if |cs| == 0 then []
    else [if cs[0].id == id then Patch(cs[0], f) else cs[0]] + UpdateById(cs[1..], id, f)
  }

  /** The id of a created customer: the last segment of the response's self
      link, or `clockId` (the page's `String(Date.now())`) when the link is
      missing or empty. */
  function CreatedId(created: Record, clockId: string): (id: string)
    ensures created.selfHref.Some? && created.selfHref.value != "" ==> id == LastSegment(created.selfHref.value)
    ensures created.selfHref.None? || created.selfHref.value == "" ==> id == clockId
  {
    match created.selfHref
    case Some(h) => if h != "" then LastSegment(h) else clockId
    case None => clockId
  }

  /** The list after a successful POST: the created customer in front, all
      earlier rows after it, unchanged and in order. */
  function PrependCreated(cs: seq<Customer>, created: Record, clockId: string): (r: seq<Customer>)
    ensures |r| == |cs| + 1
    ensures r[0].rec == created && r[0].id == CreatedId(created, clockId)
    ensures r[1..] == cs
  {
    [Customer(CreatedId(created, clockId), created)] + cs
  }

  // -------------------------------------------------------------- example

  /** The self link `https://api/customers/2` gives the id `2`. */
  lemma IdFromExampleLink()
    ensures LastSegment("https://api/customers/2") == "2"
  {
    var h := "https://api/customers/2";
    LastSegmentUnique(h, "2");
  }
}

=== FILE: customers_csv.dfy ===
/** The customer CSV export: a header line of column names, then one line
    per row the search shows, each member written by `JSON.stringify`. The
    quoting therefore follows the string grammar of section 7 of RFC 8259
    (`\"` and `\\` escapes), not the quote doubling of RFC 4180. */
module CustomersCsv {
  import opened Values
  import opened Strings
  import opened JsonString
  import opened Customers

  /** The exported members, in column order. */
  const Columns: seq<string> := ["firstname", "lastname", "email", "phone", "city", "streetaddress", "postcode"]

  /** `headers.join(',')`. */
  const HeaderLine: string := "firstname,lastname,email,phone,city,streetaddress,postcode"

  /** `(r as any)[h]` for a column name `h`. */
  function Member(c: Customer, h: string): Value
  {
    if h == "firstname" then c.rec.firstname
    else if h == "lastname" then c.rec.lastname
    else if h == "email" then c.rec.email
    else if h == "phone" then c.rec.phone
    else if h == "city" then c.rec.city
    else if h == "streetaddress" then c.rec.streetaddress
    else if h == "postcode" then c.rec.postcode
    else Undefined
  }

  /** The text exported for each column of a row: `r[h] ?? ''`. */
  function FieldTexts(c: Customer): (r: seq<string>)
    ensures |r| == |Columns|
  {
    seq(|Columns|, i requires 0 <= i < |Columns| => OrEmpty(Member(c, Columns[i])))
  }

  /** `JSON.stringify` applied to each text. */
  function QuoteAll(fs: seq<string>): (r: seq<string>)
    ensures |r| == |fs|
  {
    if |fs| == 0 then [] else [Quote(fs[0])] + QuoteAll(fs[1..])
  }

  lemma {:induction false} QuoteAllAt(fs: seq<string>, i: nat)
    requires i < |fs|
    ensures QuoteAll(fs)[i] == Quote(fs[i])
    decreases i
  {
    if i > 0 {
      QuoteAllAt(fs[1..], i - 1);
    }
  }

  /** The quoted texts joined by commas, built from the front. */
  function QuotedLine(fs: seq<string>): string
  {
    if |fs| == 0 then ""
    else if |fs| == 1 then Quote(fs[0])
    else Quote(fs[0]) + ("," + QuotedLine(fs[1..]))
  }

  /** One data line: `headers.map(...).join(',')`, the quoted member texts joined by commas. */
  function RowLine(c: Customer): string
  {
    QuotedLine(FieldTexts(c))
  }

  function RowLines(rows: seq<Customer>): (r: seq<string>)
    ensures |r| == |rows|
    ensures forall i | 0 <= i < |rows| :: r[i] == RowLine(rows[i])
  {
    if |rows| == 0 then [] else [RowLine(rows[0])] + RowLines(rows[1..])
  }

  /** `[headers.join(','), ...rows].join('\n')`. */
  function CsvText(rows: seq<Customer>): (text: string)
    ensures Split(text, '\n') == [HeaderLine] + RowLines(rows)
  {
    LinesOneLine(rows);
    SplitJoin([HeaderLine] + RowLines(rows), '\n');
    Join([HeaderLine] + RowLines(rows), "\n")
  }

  /** `handleExportCsv`: the CSV text of the rows the current search shows.
      It has one line more than the search shows rows: the header, then
      each shown row in order, whose line reads back as its member texts. */
  function ExportCsv(cs: seq<Customer>, search: string): (text: string)
    ensures var rows, lines := FilterRows(cs, search), Split(text, '\n');
              && |lines| == |rows| + 1
              && lines[0] == HeaderLine
              && forall i | 0 <= i < |rows| :: ParseRow(lines[i + 1]) == Some(FieldTexts(rows[i]))
  {
    CsvLines(FilterRows(cs, search));
    CsvText(FilterRows(cs, search))
  }

  /** Reads a line of comma-separated JSON string literals. */
  function ParseRow(line: string): Option<seq<string>>
    decreases |line|
  {
    match ReadString(line)
    case None => None
    case Some((v, rest)) =>
      if |rest| == 0 then Some([v])
      else if rest[0] == ',' then
        match ParseRow(rest[1..])
        case None => None
        case Some(vs) => Some([v] + vs)
      else None
  }

  /** The header is the column names joined by commas. */
  lemma HeaderLineIsJoinedColumns()
    ensures HeaderLine == Join(Columns, ",")
  {
    var c1: seq<string> := ["firstname"];
    var c2 := c1 + ["lastname"];
    var c3 := c2 + ["email"];
    var c4 := c3 + ["phone"];
    var c5 := c4 + ["city"];
    var c6 := c5 + ["streetaddress"];
    var c7 := c6 + ["postcode"];
    assert Join(c1, ",") == "firstname";
    assert Join(c2, ",") == "firstname,lastname" by { JoinSnoc(c1, "lastname", ","); }
    assert Join(c3, ",") == "firstname,lastname,email" by { JoinSnoc(c2, "email", ","); }
    assert Join(c4, ",") == "firstname,lastname,email,phone" by { JoinSnoc(c3, "phone", ","); }
    assert Join(c5, ",") == "firstname,lastname,email,phone,city" by { JoinSnoc(c4, "city", ","); }
    assert Join(c6, ",") == "firstname,lastname,email,phone,city,streetaddress" by {
      JoinSnoc(c5, "streetaddress", ",");
    }
    assert Join(c7, ",") == HeaderLine by { JoinSnoc(c6, "postcode", ","); }
    assert c7 == Columns;
  }

  /** Reading a literal followed by a comma continues with the rest of the line. */
  lemma ParseRowCons(line: string, v: string, tail: string, vs: seq<string>, all: seq<string>)
    requires ReadString(line) == Some((v, "," + tail))
    requires ParseRow(tail) == Some(vs)
    requires |all| >= 1 && all[0] == v && all[1..] == vs
    ensures ParseRow(line) == Some(all)
  {
    assert ("," + tail)[1..] == tail;
    assert [v] + vs == all;
  }

  /** A line of quoted texts reads back as the texts, commas inside them included. */
  lemma {:induction false} ParseQuotedRow(fs: seq<string>)
    requires |fs| >= 1
    ensures ParseRow(QuotedLine(fs)) == Some(fs)
    decreases |fs|
  {
    var a := Quote(fs[0]);
    if |fs| == 1 {
      QuoteRoundTrip(fs[0], "");
      assert a + "" == a;
      assert fs == [fs[0]];
    } else {
      var tail := QuotedLine(fs[1..]);
      ParseQuotedRow(fs[1..]);
      QuoteRoundTrip(fs[0], "," + tail);
      ParseRowCons(a + ("," + tail), fs[0], tail, fs[1..], fs);
    }
  }

  /** The quoted line is the quoted texts joined by commas. */
  lemma {:induction false} QuotedLineIsJoin(fs: seq<string>)
    ensures QuotedLine(fs) == Join(QuoteAll(fs), ",")
    decreases |fs|
  {
    if |fs| >= 2 {
      QuotedLineIsJoin(fs[1..]);
      JoinFront(QuoteAll(fs), Quote(fs[0]), QuoteAll(fs[1..]), ",");
    }
  }

  /** A data line holds no line break: every quoted text is free of raw control characters. */
  lemma RowLineOneLine(c: Customer)
    ensures '\n' !in RowLine(c)
  {
    var q := QuoteAll(FieldTexts(c));
    forall i | 0 <= i < |q| ensures '\n' !in q[i] {
      QuoteAllAt(FieldTexts(c), i);
    }
    QuotedLineIsJoin(FieldTexts(c));
    JoinAvoids(q, ",", '\n');
  }

  lemma HeaderLineOneLine()
    ensures '\n' !in HeaderLine
  {
    HeaderLineIsJoinedColumns();
    assert '\n' !in Columns[0] && '\n' !in Columns[1] && '\n' !in Columns[2] && '\n' !in Columns[3];
    assert '\n' !in Columns[4] && '\n' !in Columns[5] && '\n' !in Columns[6];
    JoinAvoids(Columns, ",", '\n');
  }

  /** No line of the export holds a line break. */
  lemma LinesOneLine(rows: seq<Customer>)
    ensures forall i | 0 <= i < |[HeaderLine] + RowLines(rows)| :: '\n' !in ([HeaderLine] + RowLines(rows))[i]
  {
    var ls := [HeaderLine] + RowLines(rows);
    forall i | 0 <= i < |ls| ensures '\n' !in ls[i] {
      if i > 0 {
        assert ls[i] == RowLine(rows[i - 1]);
        RowLineOneLine(rows[i - 1]);
      } else {
        assert ls[i] == HeaderLine;
        HeaderLineOneLine();
      }
    }
  }

  /** The CSV text splits into exactly one header line and one line per row,
      in order, and each data line reads back as that row's member texts. */
  lemma CsvLines(rows: seq<Customer>)
    ensures var lines := Split(CsvText(rows), '\n');
              && |lines| == |rows| + 1
              && lines[0] == HeaderLine
              && forall i | 0 <= i < |rows| :: ParseRow(lines[i + 1]) == Some(FieldTexts(rows[i]))
  {
    var ls := [HeaderLine] + RowLines(rows);
    forall i | 0 <= i < |rows| ensures ParseRow(ls[i + 1]) == Some(FieldTexts(rows[i])) {
      assert ls[i + 1] == RowLine(rows[i]);
      RowLineReads(rows[i]);
    }
  }

  /** A data line reads back as the row's member texts. */
  lemma RowLineReads(c: Customer)
    ensures ParseRow(RowLine(c)) == Some(FieldTexts(c))
  {
    ParseQuotedRow(FieldTexts(c));
  }

  /** A member that is `null` or `undefined` is exported as the empty literal `""`. */
  lemma MissingMemberIsEmptyLiteral(c: Customer, i: nat)
    requires i < |Columns| && !Member(c, Columns[i]).Str?
    ensures QuoteAll(FieldTexts(c))[i] == "\"\""
  {
    QuoteAllAt(FieldTexts(c), i);
    assert FieldTexts(c)[i] == "";
  }
}

=== FILE: json_string.dfy ===
/** `JSON.stringify` applied to a string, which writes a string literal in
    the grammar of section 7 of RFC 8259, and a reader for such literals. */
module JsonString {
  import opened Values
  import opened Strings

  /** A lower-case hexadecimal digit, as `JSON.stringify` writes them. */
  function HexDigit(d: nat): char
    requires d < 16
  {
    if d < 10 then ('0' as int + d) as char else ('a' as int + d - 10) as char
  }

  /** The value of a hexadecimal digit of either case. */
  function HexValue(c: char): (r: Option<nat>)
    ensures r.Some? ==> r.value < 16
  {
    if '0' <= c <= '9' then Some(c as int - '0' as int)
    else if 'a' <= c <= 'f' then Some(c as int - 'a' as int + 10)
    else if 'A' <= c <= 'F' then Some(c as int - 'A' as int + 10)
    else None
  }

  lemma HexValueOfDigit(d: nat)
    requires d < 16
    ensures HexValue(HexDigit(d)) == Some(d)
  {
  }

  /** How `JSON.stringify` writes one character inside the quotes: the two
      quote-like characters and the five named controls get a short escape,
      the other controls below U+0020 a `\u00XX` escape, and everything else
      stands for itself. */
  function EscapeChar(c: char): (r: string)
    ensures |r| >= 1
    ensures r == [c] || r[0] == '\\'
    ensures forall i | 0 <= i < |r| :: r[i] as int >= 0x20
    ensures c == '"' ==> r == "\\\""
    ensures c == '\\' ==> r == "\\\\"
    ensures c as int >= 0x20 && c != '"' && c != '\\' ==> r == [c]
  {
    if c == '"' then "\\\""
    else if c == '\\' then "\\\\"
    else if c == '\U{0008}' then "\\b"
    else if c == '\t' then "\\t"
    else if c == '\n' then "\\n"
    else if c == '\U{000C}' then "\\f"
    else if c == '\r' then "\\r"
    else if (c as int) < 0x20 then "\\u00" + [HexDigit(c as int / 16), HexDigit(c as int % 16)]
    else [c]
  }

  /** The characters of `s` as they appear between the quotes. */
  function EscapeBody(s: string): string
  {
    if |s| == 0 then "" else EscapeChar(s[0]) + EscapeBody(s[1..])
  }

  /** No character of `s` is a control character below U+0020. */
  predicate Printable(s: string)
  {
    forall i | 0 <= i < |s| :: s[i] as int >= 0x20
  }

  lemma {:induction false} EscapeBodyPrintable(s: string)
    ensures Printable(EscapeBody(s))
    decreases |s|
  {
    if |s| > 0 {
      EscapeBodyPrintable(s[1..]);
      var a, b := EscapeChar(s[0]), EscapeBody(s[1..]);
      assert forall i | |a| <= i < |a + b| :: (a + b)[i] == b[i - |a|];
    }
  }

  /** `JSON.stringify(s)` for a string `s`: a literal in quotes whose
      characters are all printable, so it never spans two lines. */
  function Quote(s: string): (r: string)
    ensures |r| >= 2 && r[0] == '"' && r[|r| - 1] == '"'
    ensures Printable(r)
  {
    EscapeBodyPrintable(s);
    "\"" + EscapeBody(s) + "\""
  }

  /** Reads the escape sequence after a backslash: the character it stands
      for and the number of characters it spans. */
  function ReadEscape(u: string): (r: Option<(char, nat)>)
    ensures r.Some? ==> 1 <= r.value.1 <= |u|
  {
    if |u| == 0 then None
    else if u[0] == '"' then Some(('"', 1))
    else if u[0] == '\\' then Some(('\\', 1))
    else if u[0] == '/' then Some(('/', 1))
    else if u[0] == 'b' then Some(('\U{0008}', 1))
    else if u[0] == 'f' then Some(('\U{000C}', 1))
    else if u[0] == 'n' then Some(('\n', 1))
    else if u[0] == 'r' then Some(('\r', 1))
    else if u[0] == 't' then Some(('\t', 1))
    else if u[0] == 'u' && |u| >= 5 then
      match (HexValue(u[1]), HexValue(u[2]), HexValue(u[3]), HexValue(u[4]))
      case (Some(a), Some(b), Some(c), Some(d)) =>
        var v := ((a * 16 + b) * 16 + c) * 16 + d;
        if 0xD800 <= v < 0xE000 then None else Some((v as char, 5))
      case _ => None
    else None
  }

  /** Reads the inside of a string literal up to its closing quote: the text
      it stands for and what follows the quote. A raw control character or a
      malformed escape makes it fail. */
  function ReadBody(t: string): (r: Option<(string, string)>)
    ensures r.Some? ==> |r.value.1| < |t|
    decreases |t|
  {
    if |t| == 0 then None
    else if t[0] == '"' then Some(("", t[1..]))
    else if t[0] == '\\' then
      match ReadEscape(t[1..])
      case None => None
      case Some((c, k)) =>
        match ReadBody(t[1 + k..])
        case None => None
        case Some((v, rest)) => Some(([c] + v, rest))
    else if (t[0] as int) < 0x20 then None
    else
      match ReadBody(t[1..])
      case None => None
      case Some((v, rest)) => Some(([t[0]] + v, rest))
  }

  /** Reads one string literal at the start of `t`: the text it stands for
      and what follows it. */
  function ReadString(t: string): (r: Option<(string, string)>)
    ensures r.Some? ==> |r.value.1| + 2 <= |t|
  {
    if |t| > 0 && t[0] == '"' then ReadBody(t[1..]) else None
  }

  /** Reading one escaped character in front of a readable tail prepends it. */
  lemma ReadEscapedChar(c: char, tail: string)
    ensures ReadBody(EscapeChar(c) + tail) ==
              match ReadBody(tail)
              case None => None
              case Some((v, rest)) => Some(([c] + v, rest))
  {
    var t := EscapeChar(c) + tail;
    if (c as int) < 0x20 && c != '\U{0008}' && c != '\t' && c != '\n' && c != '\U{000C}' && c != '\r' {
      var hi, lo := c as int / 16, c as int % 16;
      HexValueOfDigit(hi);
      HexValueOfDigit(lo);
      HexValueOfDigit(0);
      assert HexDigit(0) == '0';
      assert EscapeChar(c) == ['\\', 'u', '0', '0', HexDigit(hi), HexDigit(lo)];
      var u := t[1..];
      assert u == ['u', '0', '0', HexDigit(hi), HexDigit(lo)] + tail;
      assert u[0] == 'u' && u[1] == '0' && u[2] == '0' && u[3] == HexDigit(hi) && u[4] == HexDigit(lo);
      assert ((0 * 16 + 0) * 16 + hi) * 16 + lo == c as int;
      assert ReadEscape(u) == Some((c, 5));
      assert t[6..] == tail;
    } else if EscapeChar(c) == [c] {
      assert t[1..] == tail;
    } else {
      assert t[2..] == tail;
    }
  }

  /** Reading the escaped body of `s` and its closing quote gives back `s`
      and leaves whatever followed untouched. */
  lemma {:induction false} ReadEscapedBody(s: string, rest: string)
    ensures ReadBody(EscapeBody(s) + "\"" + rest) == Some((s, rest))
    decreases |s|
  {
    if |s| == 0 {
      var t := EscapeBody(s) + "\"" + rest;
      assert t[0] == '"' && t[1..] == rest;
    } else {
      var tail := EscapeBody(s[1..]) + "\"" + rest;
      ReadEscapedBody(s[1..], rest);
      ReadEscapedChar(s[0], tail);
      assert EscapeBody(s) + "\"" + rest == EscapeChar(s[0]) + tail;
      assert [s[0]] + s[1..] == s;
    }
  }

  /** The round trip of `JSON.stringify` on strings: the literal it writes
      reads back as the original text, whatever follows it. */
  lemma QuoteRoundTrip(s: string, rest: string)
    ensures ReadString(Quote(s) + rest) == Some((s, rest))
  {
    ReadEscapedBody(s, rest);
    assert (Quote(s) + rest)[1..] == EscapeBody(s) + "\"" + rest;
  }
}

=== FILE: records.dfy ===
/** Training records as the trainings, statistics and calendar pages read
    them out of the service's response. Dates are abstracted: parsing and
    formatting belong to the date library, so a date arrives already read. */
module Records {
  import opened Values

  /** A training's `date` after parsing: the instant in milliseconds, the
      index of its local calendar day, and its `YYYY-MM-DD` day key. */
  datatype Moment = Moment(ms: int, day: int, dayKey: string)

  /** The local calendar day never runs backwards in time: between two
      moments, the later or equal instant lies on the later or equal day. */
  predicate Monotone(a: Moment, b: Moment)
  {
    (a.ms <= b.ms ==> a.day <= b.day) && (b.ms <= a.ms ==> b.day <= a.day)
  }

  /** A training's `duration` member after `Number(...)`: a whole number of
      minutes, or `NaN` for text that is not a number. */
  datatype Duration = Minutes(n: int) | NotANumber

  /** `Number(t.duration) || 0`: a `NaN` contributes nothing, and a
      negative number is kept as it is. */
  function Contribution(d: Duration): int
  {
    match d
    case Minutes(n) => n
    case NotANumber => 0
  }

  /** The customer embedded in a training. */
  datatype Person = Person(firstname: Value, lastname: Value)

  /** A training's own `id` member, when the service sends one: a number or a string. */
  datatype RowId = NumericId(n: int) | TextId(s: string)

  /** One training. `customer` is `None` for `null` or a missing customer;
      `selfHref` is `_links.self.href`, `None` when any step is missing. */
  datatype Training = Training(
    date: Moment,
    activity: Value,
    duration: Duration,
    customer: Option<Person>,
    id: Option<RowId>,
    selfHref: Option<string>)
}

=== FILE: sequences.dfy ===
/** Order facts about sequences shared by the pages' list operations. */
module Sequences {

  /** `b` contains the elements of `a` in the same order, possibly with others in between. */
  predicate IsSubsequence<T(==)>(a: seq<T>, b: seq<T>)
    decreases |b|
  {
    |a| == 0 || (|b| > 0 && ((a[0] == b[0] && IsSubsequence(a[1..], b[1..])) || IsSubsequence(a, b[1..])))
  }

  lemma {:induction false} SubsequenceOfItself<T>(s: seq<T>)
    ensures IsSubsequence(s, s)
    decreases |s|
  {
    if |s| > 0 {
      SubsequenceOfItself(s[1..]);
    }
  }
}

=== FILE: statistics.dfy ===
/** The statistics page: the trainings inside the chosen date range, their
    minutes summed per activity (largest first) and per day (earliest
    first), and the three summary cards. The page's `for` loops visit the
    trainings in order, so the definitions here take sequences apart from
    the back; an aggregate lists its keys in the order they were first
    met. */
module Statistics {
  import opened Values
  import opened Strings
  import opened Sequences
  import opened Records

  /** An aggregated row: an activity name or a day key, and its minutes. */
  datatype Row = Row(key: string, minutes: int)

  // --------------------------------------------------------------- range

  /** The page's range test: with a start bound, the training lies on the
      start's day or after the start instant; with an end bound, on the
      end's day or before the end instant. */
  predicate InRange(d: Moment, start: Option<Moment>, end: Option<Moment>)
    ensures start.None? && end.None? ==> InRange(d, start, end)
    ensures (start.None? || d.day == start.value.day) && (end.None? || d.day == end.value.day) ==> InRange(d, start, end)
    ensures start.Some? && d.ms < start.value.ms && d.day != start.value.day ==> !InRange(d, start, end)
    ensures end.Some? && d.ms > end.value.ms && d.day != end.value.day ==> !InRange(d, start, end)
  {
    && (start.None? || d.day == start.value.day || d.ms > start.value.ms)
    && (end.None? || d.day == end.value.day || d.ms < end.value.ms)
  }

  /** Both bounds include their whole day: the test is a comparison of
      calendar days, whatever the time of day of either bound. */
  lemma InRangeWholeDays(d: Moment, start: Option<Moment>, end: Option<Moment>)
    requires start.Some? ==> Monotone(d, start.value)
    requires end.Some? ==> Monotone(d, end.value)
    ensures InRange(d, start, end) <==>
              (start.None? || start.value.day <= d.day) && (end.None? || d.day <= end.value.day)
  {
  }

  /** `trainings.filter(...)` with the range test. */
  function InRangeOnly(ts: seq<Training>, start: Option<Moment>, end: Option<Moment>): (r: seq<Training>)
    ensures IsSubsequence(r, ts)
    ensures forall t :: t in r <==> t in ts && InRange(t.date, start, end)
  {
    if |ts| == 0 then []
    else if InRange(ts[0].date, start, end) then [ts[0]] + InRangeOnly(ts[1..], start, end)
    else InRangeOnly(ts[1..], start, end)
  }

  /** The filter keeps every copy of an in-range training and none of the others. */
  lemma {:induction false} InRangeOnlyCounts(ts: seq<Training>, start: Option<Moment>, end: Option<Moment>, t: Training)
    ensures multiset(InRangeOnly(ts, start, end))[t] == if InRange(t.date, start, end) then multiset(ts)[t] else 0
    decreases |ts|
  {
    if |ts| > 0 {
      InRangeOnlyCounts(ts[1..], start, end, t);
      assert ts == [ts[0]] + ts[1..];
    }
  }

  // ---------------------------------------------------------------- keys

  /** `(t.activity ?? 'Unknown').trim()`: a missing activity is filed under
      `Unknown`; any present one is trimmed, so a blank name becomes the
      empty key rather than `Unknown`. */
  function ActivityKey(activity: Value): (k: string)
    ensures IsTrimmed(k)
    ensures activity.Str? ==> (k == "" <==> AllWhite(activity.s))
    ensures !activity.Str? ==> k == "Unknown"
  {
    match activity
    case Str(s) => Trim(s)
    case _ => "Unknown"
  }

  /** Names that differ only in surrounding white space share a key. */
  lemma ActivityKeyPadded(lead: string, name: string, trail: string)
    requires AllWhite(lead) && AllWhite(trail) && IsTrimmed(name)
    ensures ActivityKey(Str(lead + name + trail)) == name
  {
    TrimPadded(lead, name, trail);
  }

  /** The total of the trainings, each counted as `Number(duration) || 0`. */
  function Total(ts: seq<Training>): int
  {
    if |ts| == 0 then 0 else Total(ts[..|ts| - 1]) + Contribution(ts[|ts| - 1].duration)
  }

  /** The activity key of a training. */
  function ActivityOf(t: Training): string
  {
    ActivityKey(t.activity)
  }

  /** The `YYYY-MM-DD` key of a training's day. */
  function DayOf(t: Training): string
  {
    t.date.dayKey
  }

  /** The total of the trainings whose key under `key` is `k`. */
  function TotalFor(ts: seq<Training>, key: Training -> string, k: string): int
  {
    if |ts| == 0 then 0
    else
      var t := ts[|ts| - 1];
      TotalFor(ts[..|ts| - 1], key, k) + (if key(t) == k then Contribution(t.duration) else 0)
  }

  // ---------------------------------------------------------------- rows

  function Sum(rows: seq<Row>): int
  {
    if |rows| == 0 then 0 else Sum(rows[..|rows| - 1]) + rows[|rows| - 1].minutes
  }

  /** The minutes of all rows with key `k`. */
  function MinutesOf(rows: seq<Row>, k: string): int
  {
    if |rows| == 0 then 0
    else MinutesOf(rows[..|rows| - 1], k) + (if rows[|rows| - 1].key == k then rows[|rows| - 1].minutes else 0)
  }

  function KeySet(rows: seq<Row>): set<string>
  {
    if |rows| == 0 then {} else KeySet(rows[..|rows| - 1]) + {rows[|rows| - 1].key}
  }

  /** No key appears in two rows. */
  predicate DistinctKeys(rows: seq<Row>)
  {
    |rows| == 0 || (rows[|rows| - 1].key !in KeySet(rows[..|rows| - 1]) && DistinctKeys(rows[..|rows| - 1]))
  }

  /** Reads the key's entry of an aggregate: with distinct keys, the row's
      minutes are all the minutes of its key. */
  lemma {:induction false} MinutesOfDistinct(rows: seq<Row>, i: nat)
    requires DistinctKeys(rows) && i < |rows|
    ensures MinutesOf(rows, rows[i].key) == rows[i].minutes
    decreases |rows|
  {
    var init := rows[..|rows| - 1];
    if i < |init| {
      MinutesOfDistinct(init, i);
      KeySetHasKeys(init, i);
    } else {
      MinutesOfAbsent(init, rows[i].key);
    }
  }

  lemma {:induction false} KeySetHasKeys(rows: seq<Row>, i: nat)
    requires i < |rows|
    ensures rows[i].key in KeySet(rows)
    decreases |rows|
  {
    if i < |rows| - 1 {
      KeySetHasKeys(rows[..|rows| - 1], i);
    }
  }

  lemma {:induction false} MinutesOfAbsent(rows: seq<Row>, k: string)
    requires k !in KeySet(rows)
    ensures MinutesOf(rows, k) == 0
    decreases |rows|
  {
    if |rows| > 0 {
      MinutesOfAbsent(rows[..|rows| - 1], k);
    }
  }

  // ---------------------------------------------------------- aggregation

  /** `agg[k] = (agg[k] ?? 0) + m` on an object whose keys
      `Object.entries` lists in insertion order: a key seen before keeps
      its row and its position and gains the minutes; a new key gets a row
      at the end. */
  function Add(rows: seq<Row>, k: string, m: int): (r: seq<Row>)
    ensures KeySet(r) == KeySet(rows) + {k}
    ensures DistinctKeys(rows) ==> DistinctKeys(r)
    ensures forall k' :: MinutesOf(r, k') == MinutesOf(rows, k') + (if k' == k then m else 0)
    ensures Sum(r) == Sum(rows) + m
    decreases |rows|
  {
    if k !in KeySet(rows) then
      var r := rows + [Row(k, m)];
      assert r[..|r| - 1] == rows;
      r
    else
      var init, last := rows[..|rows| - 1], rows[|rows| - 1];
      if last.key == k then
        var r := init + [Row(k, last.minutes + m)];
        assert r[..|r| - 1] == init;
        r
      else
        var r := Add(init, k, m) + [last];
        assert r[..|r| - 1] == Add(init, k, m);
        r
  }

  /** Where `Add` puts the minutes: a new key gets a row at the end; a key
      seen before leaves every row's key where it was. */
  lemma {:induction false} AddPlacement(rows: seq<Row>, k: string, m: int)
    ensures k !in KeySet(rows) ==> Add(rows, k, m) == rows + [Row(k, m)]
    ensures k in KeySet(rows) ==>
              |Add(rows, k, m)| == |rows| && forall i | 0 <= i < |rows| :: Add(rows, k, m)[i].key == rows[i].key
    decreases |rows|
  {
    if k in KeySet(rows) {
      var init, last := rows[..|rows| - 1], rows[|rows| - 1];
      if last.key != k {
        AddPlacement(init, k, m);
      }
    }
  }

  /** Runs `Add` over the entries in order, as the page's loop does. */
  function Group(es: seq<Row>): (r: seq<Row>)
    ensures DistinctKeys(r)
    ensures KeySet(r) == KeySet(es)
    ensures forall k :: MinutesOf(r, k) == MinutesOf(es, k)
    ensures Sum(r) == Sum(es)
  {
    if |es| == 0 then []
    else Add(Group(es[..|es| - 1]), es[|es| - 1].key, es[|es| - 1].minutes)
  }

  /** One entry per training, in order: its key under `key` and its contribution. */
  function Entries(ts: seq<Training>, key: Training -> string): (r: seq<Row>)
    ensures |r| == |ts|
    ensures Sum(r) == Total(ts)
  {
    if |ts| == 0 then []
    else
      var t := ts[|ts| - 1];
      var r := Entries(ts[..|ts| - 1], key) + [Row(key(t), Contribution(t.duration))];
      assert r[..|r| - 1] == Entries(ts[..|ts| - 1], key);
      r
  }

  /** The entries of key `k` add up to the trainings with that key. */
  lemma {:induction false} EntriesMinutes(ts: seq<Training>, key: Training -> string, k: string)
    ensures MinutesOf(Entries(ts, key), k) == TotalFor(ts, key, k)
    decreases |ts|
  {
    if |ts| > 0 {
      var init, t := ts[..|ts| - 1], ts[|ts| - 1];
      EntriesMinutes(init, key, k);
      SnocMinutes(Entries(init, key), Row(key(t), Contribution(t.duration)), k);
    }
  }

  /** The entries' keys are the keys of the trainings. */
  lemma {:induction false} EntriesKeys(ts: seq<Training>, key: Training -> string)
    ensures KeySet(Entries(ts, key)) == set t | t in ts :: key(t)
    decreases |ts|
  {
    if |ts| > 0 {
      var init, t := ts[..|ts| - 1], ts[|ts| - 1];
      EntriesKeys(init, key);
      Snoc(Entries(init, key), Row(key(t), Contribution(t.duration)));
      assert ts == init + [t];
      ImageSnoc(init, t, key);
    }
  }

  /** The keys of `init + [t]` are those of `init` and the key of `t`. */
  lemma ImageSnoc(init: seq<Training>, t: Training, f: Training -> string)
    ensures (set u | u in init + [t] :: f(u)) == (set u | u in init :: f(u)) + {f(t)}
  {
    var all := set u | u in init + [t] :: f(u);
    forall x | x in all ensures x in (set u | u in init :: f(u)) + {f(t)} {
      var u :| u in init + [t] && f(u) == x;
      assert u in init || u == t;
    }
  }

  /** Grouping the entries of `ts` under `key`: one row per key, holding
      that key's total. */
  lemma GroupedEntries(ts: seq<Training>, key: Training -> string)
    ensures KeySet(Group(Entries(ts, key))) == set t | t in ts :: key(t)
    ensures forall k :: MinutesOf(Group(Entries(ts, key)), k) == TotalFor(ts, key, k)
  {
    EntriesKeys(ts, key);
    forall k ensures MinutesOf(Group(Entries(ts, key)), k) == TotalFor(ts, key, k) {
      EntriesMinutes(ts, key, k);
    }
  }

  /** A `for` loop of the page over `ts` summing into an object under
      `key`: one row per key, each holding that key's total. */
  function Aggregate(ts: seq<Training>, key: Training -> string): (g: seq<Row>)
    ensures DistinctKeys(g)
    ensures KeySet(g) == set t | t in ts :: key(t)
    ensures Sum(g) == Total(ts)
    ensures forall k :: MinutesOf(g, k) == TotalFor(ts, key, k)
  {
    GroupedEntries(ts, key);
    Group(Entries(ts, key))
  }

  /** The entry of the `i`-th training is its key and its contribution. */
  lemma {:induction false} EntriesAt(ts: seq<Training>, key: Training -> string, i: nat)
    requires i < |ts|
    ensures Entries(ts, key)[i] == Row(key(ts[i]), Contribution(ts[i].duration))
    decreases |ts|
  {
    if i < |ts| - 1 {
      EntriesAt(ts[..|ts| - 1], key, i);
    }
  }

  // ---------------------------------------------------------- key order

  /** The index of the first row with key `k`, or `|es|` when there is none. */
  function FirstIndex(es: seq<Row>, k: string): (i: nat)
    ensures i <= |es|
    ensures i < |es| <==> k in KeySet(es)
    ensures i < |es| ==> es[i].key == k
    ensures forall j | 0 <= j < i && j < |es| :: es[j].key != k
  {
    if |es| == 0 then 0
    else
      var init := es[..|es| - 1];
      if k in KeySet(init) then FirstIndex(init, k)
      else
        assert forall j | 0 <= j < |init| :: init[j].key != k by {
          forall j | 0 <= j < |init| ensures init[j].key != k {
            KeySetHasKeys(init, j);
          }
        }
        if es[|es| - 1].key == k then |es| - 1 else |es|
  }

  /** The rows' keys appear in the order in which they first occur in `es`. */
  predicate FirstSeenOrder(rows: seq<Row>, es: seq<Row>)
  {
    forall i, j | 0 <= i < j < |rows| :: FirstIndex(es, rows[i].key) < FirstIndex(es, rows[j].key)
  }

  /** A key already present keeps its first index when a row is appended; a
      new key first occurs at the appended row. */
  lemma FirstIndexSnoc(init: seq<Row>, x: Row, k: string)
    ensures k in KeySet(init) ==> FirstIndex(init + [x], k) == FirstIndex(init, k)
    ensures k !in KeySet(init) && x.key == k ==> FirstIndex(init + [x], k) == |init|
  {
    assert (init + [x])[..|init|] == init;
  }

  /** Grouping lists the keys in the order they first occur among the
      entries, as a plain object's string keys are listed by `Object.entries`. */
  lemma {:induction false} GroupFirstSeen(es: seq<Row>)
    ensures FirstSeenOrder(Group(es), es)
    decreases |es|
  {
    if |es| > 0 {
      var init, x := es[..|es| - 1], es[|es| - 1];
      assert es == init + [x];
      var g := Group(init);
      GroupFirstSeen(init);
      var r := Group(es);
      AddPlacement(g, x.key, x.minutes);
      forall i | 0 <= i < |g| ensures FirstIndex(es, g[i].key) == FirstIndex(init, g[i].key) < |init| {
        KeySetHasKeys(g, i);
        FirstIndexSnoc(init, x, g[i].key);
      }
      if x.key in KeySet(g) {
        assert forall i | 0 <= i < |r| :: r[i].key == g[i].key;
      } else {
        assert r == g + [Row(x.key, x.minutes)];
        FirstIndexSnoc(init, x, x.key);
      }
    }
  }

  /** The first occurrence of a key among the entries is the first training with that key. */
  lemma EntriesFirstIndex(ts: seq<Training>, key: Training -> string, k: string)
    ensures var i := FirstIndex(Entries(ts, key), k);
              && (i < |ts| ==> key(ts[i]) == k)
              && forall j | 0 <= j < i && j < |ts| :: key(ts[j]) != k
  {
    var es := Entries(ts, key);
    var i := FirstIndex(es, k);
    forall j | 0 <= j < |ts| ensures es[j].key == key(ts[j]) {
      EntriesAt(ts, key, j);
    }
  }

  // ------------------------------------------------------------- sorting

  /** Each row has at least the minutes of the next. */
  predicate NonIncreasing(rows: seq<Row>)
  {
    forall i | 0 < i < |rows| :: rows[i - 1].minutes >= rows[i].minutes
  }

  /** The rows with exactly `m` minutes, in order. */
  function WithMinutes(rows: seq<Row>, m: int): seq<Row>
  {
    if |rows| == 0 then []
    else WithMinutes(rows[..|rows| - 1], m) + (if rows[|rows| - 1].minutes == m then [rows[|rows| - 1]] else [])
  }

  /** Every row with `m` minutes is one of the rows. */
  lemma {:induction false} WithMinutesFrom(rows: seq<Row>, m: int, i: nat)
    requires i < |WithMinutes(rows, m)|
    ensures exists p :: 0 <= p < |rows| && rows[p] == WithMinutes(rows, m)[i]
    decreases |rows|
  {
    var init := rows[..|rows| - 1];
    if i < |WithMinutes(init, m)| {
      WithMinutesFrom(init, m, i);
      var p :| 0 <= p < |init| && init[p] == WithMinutes(init, m)[i];
      assert rows[p] == init[p];
    } else {
      assert WithMinutes(rows, m)[i] == rows[|rows| - 1];
    }
  }

  /** A row with `m` minutes is among the rows picked for `m`. */
  lemma {:induction false} WithMinutesHas(rows: seq<Row>, m: int, i: nat)
    requires i < |rows| && rows[i].minutes == m
    ensures exists p :: 0 <= p < |WithMinutes(rows, m)| && WithMinutes(rows, m)[p] == rows[i]
    decreases |rows|
  {
    var init := rows[..|rows| - 1];
    var w0 := WithMinutes(init, m);
    if i < |init| {
      WithMinutesHas(init, m, i);
      var p :| 0 <= p < |w0| && w0[p] == init[i];
      assert WithMinutes(rows, m)[p] == w0[p];
    } else {
      assert WithMinutes(rows, m)[|w0|] == rows[i];
    }
  }

  /** Two rows with `m` minutes are picked in the order they stand in. */
  lemma {:induction false} WithMinutesPair(rows: seq<Row>, m: int, i: nat, j: nat)
    requires i < j < |rows| && rows[i].minutes == m && rows[j].minutes == m
    ensures exists p, q :: 0 <= p < q < |WithMinutes(rows, m)| &&
              WithMinutes(rows, m)[p] == rows[i] && WithMinutes(rows, m)[q] == rows[j]
    decreases |rows|
  {
    var init := rows[..|rows| - 1];
    var w0, w := WithMinutes(init, m), WithMinutes(rows, m);
    var last := rows[|rows| - 1];
    assert w == w0 + (if last.minutes == m then [last] else []);
    if j < |init| {
      WithMinutesPair(init, m, i, j);
      var p, q :| 0 <= p < q < |w0| && w0[p] == init[i] && w0[q] == init[j];
      assert w[p] == w0[p] && w[q] == w0[q];
    } else {
      WithMinutesHas(init, m, i);
      var p :| 0 <= p < |w0| && w0[p] == init[i];
      assert w[p] == w0[p] && w[|w0|] == rows[j];
    }
  }

  /** Picking the rows of one minute count keeps their first-seen order. */
  lemma {:induction false} WithMinutesFirstSeen(rows: seq<Row>, m: int, es: seq<Row>)
    requires FirstSeenOrder(rows, es)
    ensures FirstSeenOrder(WithMinutes(rows, m), es)
    decreases |rows|
  {
    if |rows| > 0 {
      var init, last := rows[..|rows| - 1], rows[|rows| - 1];
      assert FirstSeenOrder(init, es);
      WithMinutesFirstSeen(init, m, es);
      var w, w0 := WithMinutes(rows, m), WithMinutes(init, m);
      if last.minutes == m {
        assert w == w0 + [last];
        forall i | 0 <= i < |w0| ensures FirstIndex(es, w0[i].key) < FirstIndex(es, last.key) {
          WithMinutesFrom(init, m, i);
          var p :| 0 <= p < |init| && init[p] == w0[i];
          assert rows[p] == init[p];
        }
      }
    }
  }

  /** Places `x` after every row with at least its minutes. */
  function InsertDesc(s: seq<Row>, x: Row): (r: seq<Row>)
    ensures |r| == |s| + 1
    ensures r[|r| - 1] == x || (|s| > 0 && r[|r| - 1] == s[|s| - 1])
    ensures multiset(r) == multiset(s) + multiset{x}
    ensures NonIncreasing(s) ==> NonIncreasing(r)
    decreases |s|
  {
    if |s| == 0 || s[|s| - 1].minutes >= x.minutes then s + [x]
    else
      var init, last := s[..|s| - 1], s[|s| - 1];
      assert init + [last] == s;
      InsertDesc(init, x) + [last]
  }

  /** Inserting keeps the rows of every minute count in their order, with
      `x` after the ones already there. */
  lemma {:induction false} InsertDescStable(s: seq<Row>, x: Row, m: int)
    ensures WithMinutes(InsertDesc(s, x), m) == WithMinutes(s, m) + (if x.minutes == m then [x] else [])
    decreases |s|
  {
    if |s| == 0 || s[|s| - 1].minutes >= x.minutes {
      WithMinutesSnoc(s, x, m);
    } else {
      var init, last := s[..|s| - 1], s[|s| - 1];
      assert s == init + [last];
      var w := WithMinutes(init, m);
      assert InsertDesc(s, x) == InsertDesc(init, x) + [last];
      InsertDescStable(init, x, m);
      WithMinutesSnoc(InsertDesc(init, x), last, m);
      WithMinutesSnoc(init, last, m);
      if x.minutes == m {
        assert last.minutes != m;
        assert WithMinutes(InsertDesc(s, x), m) == w + [x];
      } else if last.minutes == m {
        assert WithMinutes(InsertDesc(s, x), m) == w + [last];
      } else {
        assert WithMinutes(InsertDesc(s, x), m) == w;
      }
    }
  }

  /** Appending a row picks it exactly when it has `m` minutes. */
  lemma WithMinutesSnoc(a: seq<Row>, y: Row, m: int)
    ensures WithMinutes(a + [y], m) == WithMinutes(a, m) + (if y.minutes == m then [y] else [])
  {
    assert (a + [y])[..|a|] == a;
  }

  /** `.sort((a, b) => b.minutes - a.minutes)`, which is stable: a stable
      insertion sort into non-increasing minutes. */
  function SortDesc(s: seq<Row>): (r: seq<Row>)
    ensures |r| == |s|
    ensures NonIncreasing(r)
    ensures multiset(r) == multiset(s)
    decreases |s|
  {
    if |s| == 0 then []
    else
      assert s[..|s| - 1] + [s[|s| - 1]] == s;
      InsertDesc(SortDesc(s[..|s| - 1]), s[|s| - 1])
  }

  /** Appending one row adds its minutes and its key. */
  lemma Snoc(a: seq<Row>, y: Row)
    ensures Sum(a + [y]) == Sum(a) + y.minutes
    ensures KeySet(a + [y]) == KeySet(a) + {y.key}
    ensures DistinctKeys(a + [y]) <==> y.key !in KeySet(a) && DistinctKeys(a)
  {
    assert (a + [y])[..|a|] == a;
  }

  lemma SnocMinutes(a: seq<Row>, y: Row, k: string)
    ensures MinutesOf(a + [y], k) == MinutesOf(a, k) + (if y.key == k then y.minutes else 0)
  {
    assert (a + [y])[..|a|] == a;
  }

  /** Inserting a row adds its minutes and its key, and keeps keys distinct
      when the row's key is new. */
  lemma {:induction false} InsertDescKeeps(s: seq<Row>, x: Row)
    ensures Sum(InsertDesc(s, x)) == Sum(s) + x.minutes
    ensures KeySet(InsertDesc(s, x)) == KeySet(s) + {x.key}
    ensures DistinctKeys(s) && x.key !in KeySet(s) ==> DistinctKeys(InsertDesc(s, x))
    decreases |s|
  {
    if |s| == 0 || s[|s| - 1].minutes >= x.minutes {
      Snoc(s, x);
    } else {
      var init, last := s[..|s| - 1], s[|s| - 1];
      assert s == init + [last];
      InsertDescKeeps(init, x);
      Snoc(InsertDesc(init, x), last);
      Snoc(init, last);
    }
  }

  lemma {:induction false} InsertDescMinutes(s: seq<Row>, x: Row, k: string)
    ensures MinutesOf(InsertDesc(s, x), k) == MinutesOf(s, k) + (if x.key == k then x.minutes else 0)
    decreases |s|
  {
    if |s| == 0 || s[|s| - 1].minutes >= x.minutes {
      SnocMinutes(s, x, k);
    } else {
      var init, last := s[..|s| - 1], s[|s| - 1];
      assert s == init + [last];
      InsertDescMinutes(init, x, k);
      SnocMinutes(InsertDesc(init, x), last, k);
      SnocMinutes(init, last, k);
    }
  }

  /** Sorting by minutes loses no minutes and no key, and keeps keys distinct. */
  lemma {:induction false} SortDescKeeps(s: seq<Row>)
    ensures Sum(SortDesc(s)) == Sum(s)
    ensures KeySet(SortDesc(s)) == KeySet(s)
    ensures DistinctKeys(s) ==> DistinctKeys(SortDesc(s))
    decreases |s|
  {
    if |s| > 0 {
      var init, last := s[..|s| - 1], s[|s| - 1];
      SortDescKeeps(init);
      InsertDescKeeps(SortDesc(init), last);
    }
  }

  /** Sorting moves rows but keeps each key's minutes. */
  lemma {:induction false} SortDescMinutes(s: seq<Row>, k: string)
    ensures MinutesOf(SortDesc(s), k) == MinutesOf(s, k)
    decreases |s|
  {
    if |s| > 0 {
      var init, last := s[..|s| - 1], s[|s| - 1];
      SortDescMinutes(init, k);
      InsertDescMinutes(SortDesc(init), last, k);
    }
  }

  /** The sort is stable: rows with equal minutes keep their original order. */
  lemma {:induction false} SortDescStable(s: seq<Row>, m: int)
    ensures WithMinutes(SortDesc(s), m) == WithMinutes(s, m)
    decreases |s|
  {
    if |s| > 0 {
      var init, last := s[..|s| - 1], s[|s| - 1];
      SortDescStable(init, m);
      InsertDescStable(SortDesc(init), last, m);
    }
  }

  /** Each key comes before the next in string order. */
  predicate Ascending(rows: seq<Row>)
  {
    forall i | 0 < i < |rows| :: StrLess(rows[i - 1].key, rows[i].key)
  }

  /** Places `x` after every row whose key is smaller. */
  function InsertAsc(s: seq<Row>, x: Row): (r: seq<Row>)
    ensures |r| == |s| + 1
    ensures r[|r| - 1] == x || (|s| > 0 && r[|r| - 1] == s[|s| - 1])
    ensures multiset(r) == multiset(s) + multiset{x}
    decreases |s|
  {
    if |s| == 0 || StrLess(s[|s| - 1].key, x.key) then s + [x]
    else
      var init, last := s[..|s| - 1], s[|s| - 1];
      assert init + [last] == s;
      InsertAsc(init, x) + [last]
  }

  lemma {:induction false} InsertAscKeeps(s: seq<Row>, x: Row)
    ensures Sum(InsertAsc(s, x)) == Sum(s) + x.minutes
    ensures KeySet(InsertAsc(s, x)) == KeySet(s) + {x.key}
    decreases |s|
  {
    if |s| == 0 || StrLess(s[|s| - 1].key, x.key) {
      Snoc(s, x);
    } else {
      var init, last := s[..|s| - 1], s[|s| - 1];
      assert s == init + [last];
      InsertAscKeeps(init, x);
      Snoc(InsertAsc(init, x), last);
      Snoc(init, last);
    }
  }

  lemma {:induction false} InsertAscDistinct(s: seq<Row>, x: Row)
    requires DistinctKeys(s) && x.key !in KeySet(s)
    ensures DistinctKeys(InsertAsc(s, x))
    decreases |s|
  {
    if |s| > 0 && !StrLess(s[|s| - 1].key, x.key) {
      var init, last := s[..|s| - 1], s[|s| - 1];
      assert s == init + [last];
      Snoc(init, last);
      InsertAscDistinct(init, x);
      InsertAscKeeps(init, x);
      Snoc(InsertAsc(init, x), last);
    } else {
      Snoc(s, x);
    }
  }

  lemma {:induction false} InsertAscMinutes(s: seq<Row>, x: Row, k: string)
    ensures MinutesOf(InsertAsc(s, x), k) == MinutesOf(s, k) + (if x.key == k then x.minutes else 0)
    decreases |s|
  {
    if |s| == 0 || StrLess(s[|s| - 1].key, x.key) {
      SnocMinutes(s, x, k);
    } else {
      var init, last := s[..|s| - 1], s[|s| - 1];
      assert s == init + [last];
      InsertAscMinutes(init, x, k);
      SnocMinutes(InsertAsc(init, x), last, k);
      SnocMinutes(init, last, k);
    }
  }

  /** Appending a row whose key follows the last one keeps rows ascending. */
  lemma AscendingSnoc(a: seq<Row>, y: Row)
    requires Ascending(a) && (|a| == 0 || StrLess(a[|a| - 1].key, y.key))
    ensures Ascending(a + [y])
  {
  }

  lemma AscendingInit(s: seq<Row>)
    requires Ascending(s) && |s| > 0
    ensures Ascending(s[..|s| - 1])
  {
  }

  /** Inserting a new key into ascending rows keeps them ascending. */
  lemma {:induction false} InsertAscSorted(s: seq<Row>, x: Row)
    requires Ascending(s) && x.key !in KeySet(s)
    ensures Ascending(InsertAsc(s, x))
    decreases |s|
  {
    if |s| == 0 || StrLess(s[|s| - 1].key, x.key) {
      AscendingSnoc(s, x);
    } else {
      var init, last := s[..|s| - 1], s[|s| - 1];
      assert s == init + [last];
      Snoc(init, last);
      StrLessTotal(x.key, last.key);
      AscendingInit(s);
      InsertAscSorted(init, x);
      var a := InsertAsc(init, x);
      assert |init| > 0 ==> StrLess(init[|init| - 1].key, last.key);
      AscendingSnoc(a, last);
    }
  }

  /** `.sort(([a], [b]) => (a > b ? 1 : -1))` on distinct keys: the
      comparator is a strict order there, so any correct sort gives the one
      ascending arrangement (`SortAscUnique`), which insertion sort also
      produces. */
  function SortAsc(s: seq<Row>): (r: seq<Row>)
    ensures |r| == |s|
    ensures multiset(r) == multiset(s)
    decreases |s|
  {
    if |s| == 0 then []
    else
      var init, last := s[..|s| - 1], s[|s| - 1];
      assert init + [last] == s;
      InsertAsc(SortAsc(init), last)
  }

  /** Sorting by key loses no minutes and no key, keeps keys distinct, and
      puts distinct keys in ascending order. */
  lemma {:induction false} SortAscKeeps(s: seq<Row>)
    ensures Sum(SortAsc(s)) == Sum(s)
    ensures KeySet(SortAsc(s)) == KeySet(s)
    ensures DistinctKeys(s) ==> DistinctKeys(SortAsc(s)) && Ascending(SortAsc(s))
    decreases |s|
  {
    if |s| > 0 {
      var init, last := s[..|s| - 1], s[|s| - 1];
      SortAscKeeps(init);
      InsertAscKeeps(SortAsc(init), last);
      if DistinctKeys(s) {
        InsertAscDistinct(SortAsc(init), last);
        InsertAscSorted(SortAsc(init), last);
      }
    }
  }

  /** In ascending rows every row's key is below the last row's key. */
  lemma {:induction false} AscendingBelowLast(s: seq<Row>, i: nat)
    requires Ascending(s) && i < |s| - 1
    ensures StrLess(s[i].key, s[|s| - 1].key)
    decreases |s| - i
  {
    if i < |s| - 2 {
      AscendingBelowLast(s, i + 1);
      StrLessTransitive(s[i].key, s[i + 1].key, s[|s| - 1].key);
    }
  }

  /** Two ascending arrangements of the same rows end in the same row. */
  lemma SameLast(a: seq<Row>, b: seq<Row>)
    requires Ascending(a) && Ascending(b) && multiset(a) == multiset(b) && |a| > 0 && |b| > 0
    ensures a[|a| - 1] == b[|b| - 1]
  {
    var x, y := a[|a| - 1], b[|b| - 1];
    if x != y {
      assert x in multiset(b) && y in multiset(a);
      var i :| 0 <= i < |b| && b[i] == x;
      var j :| 0 <= j < |a| && a[j] == y;
      AscendingBelowLast(b, i);
      AscendingBelowLast(a, j);
      StrLessTransitive(x.key, y.key, x.key);
      StrLessIrreflexive(x.key);
      assert false;
    }
  }

  /** Removing the same last row from equal multisets leaves equal multisets. */
  lemma SameInit(a: seq<Row>, b: seq<Row>)
    requires multiset(a) == multiset(b) && |a| > 0 && |b| > 0 && a[|a| - 1] == b[|b| - 1]
    ensures multiset(a[..|a| - 1]) == multiset(b[..|b| - 1])
  {
    var a0, b0, x := a[..|a| - 1], b[..|b| - 1], a[|a| - 1];
    assert a == a0 + [x] && b == b0 + [x];
    forall z ensures multiset(a0)[z] == multiset(b0)[z] {
      assert multiset(a)[z] == multiset(a0)[z] + multiset{x}[z];
      assert multiset(b)[z] == multiset(b0)[z] + multiset{x}[z];
    }
  }

  /** Two ascending arrangements of the same rows are the same: the
      comparator is a strict order, so there is only one. */
  lemma {:induction false} AscendingUnique(a: seq<Row>, b: seq<Row>)
    requires Ascending(a) && Ascending(b) && multiset(a) == multiset(b)
    ensures a == b
    decreases |a|
  {
    assert |a| == |multiset(a)| == |multiset(b)| == |b|;
    if |a| > 0 {
      SameLast(a, b);
      SameInit(a, b);
      AscendingInit(a);
      AscendingInit(b);
      AscendingUnique(a[..|a| - 1], b[..|b| - 1]);
      assert a == a[..|a| - 1] + [a[|a| - 1]] && b == b[..|b| - 1] + [b[|b| - 1]];
    }
  }

  /** Any ascending arrangement of rows with distinct keys is the one the
      day sort produces, whichever sorting algorithm the browser uses. */
  lemma SortAscUnique(s: seq<Row>, r: seq<Row>)
    requires DistinctKeys(s) && Ascending(r) && multiset(r) == multiset(s)
    ensures r == SortAsc(s)
  {
    SortAscKeeps(s);
    AscendingUnique(r, SortAsc(s));
  }

  lemma {:induction false} SortAscMinutes(s: seq<Row>, k: string)
    ensures MinutesOf(SortAsc(s), k) == MinutesOf(s, k)
    decreases |s|
  {
    if |s| > 0 {
      var init, last := s[..|s| - 1], s[|s| - 1];
      SortAscMinutes(init, k);
      InsertAscMinutes(SortAsc(init), last, k);
    }
  }

  /** Both sorts, stated for every key and every minute count at once. */
  lemma SortsKeepEveryKey(s: seq<Row>)
    ensures forall k :: MinutesOf(SortDesc(s), k) == MinutesOf(s, k)
    ensures forall k :: MinutesOf(SortAsc(s), k) == MinutesOf(s, k)
    ensures forall m :: WithMinutes(SortDesc(s), m) == WithMinutes(s, m)
  {
    forall k ensures MinutesOf(SortDesc(s), k) == MinutesOf(s, k) && MinutesOf(SortAsc(s), k) == MinutesOf(s, k) {
      SortDescMinutes(s, k);
      SortAscMinutes(s, k);
    }
    forall m ensures WithMinutes(SortDesc(s), m) == WithMinutes(s, m) {
      SortDescStable(s, m);
    }
  }

  // ---------------------------------------------------------------- page

  /** The activity chart's rows: one per activity key of the in-range
      trainings, holding that key's total, largest total first; rows with
      equal totals keep the order `Group` gives them (see
      `ActivityTiesFirstSeen`). */
  function ActivityRows(ts: seq<Training>, start: Option<Moment>, end: Option<Moment>): (r: seq<Row>)
    ensures DistinctKeys(r) && NonIncreasing(r)
    ensures KeySet(r) == set t | t in InRangeOnly(ts, start, end) :: ActivityOf(t)
    ensures Sum(r) == Total(InRangeOnly(ts, start, end))
    ensures forall k :: MinutesOf(r, k) == TotalFor(InRangeOnly(ts, start, end), ActivityOf, k)
    ensures forall m :: WithMinutes(r, m) == WithMinutes(Aggregate(InRangeOnly(ts, start, end), ActivityOf), m)
  {
    var g := Aggregate(InRangeOnly(ts, start, end), ActivityOf);
    SortDescKeeps(g);
    SortsKeepEveryKey(g);
    SortDesc(g)
  }

  /** Activities with equal totals are listed in the order in which their
      first in-range training occurs, as the page's stable sort keeps the
      insertion order of `agg`. */
  lemma ActivityTiesFirstSeen(ts: seq<Training>, start: Option<Moment>, end: Option<Moment>)
    ensures var rows, es := ActivityRows(ts, start, end), Entries(InRangeOnly(ts, start, end), ActivityOf);
              forall i, j | 0 <= i < j < |rows| && rows[i].minutes == rows[j].minutes ::
                FirstIndex(es, rows[i].key) < FirstIndex(es, rows[j].key)
  {
    var rows, es := ActivityRows(ts, start, end), Entries(InRangeOnly(ts, start, end), ActivityOf);
    var g := Aggregate(InRangeOnly(ts, start, end), ActivityOf);
    assert g == Group(es);
    GroupFirstSeen(es);
    forall i, j | 0 <= i < j < |rows| && rows[i].minutes == rows[j].minutes
      ensures FirstIndex(es, rows[i].key) < FirstIndex(es, rows[j].key)
    {
      var m := rows[i].minutes;
      WithMinutesFirstSeen(g, m, es);
      assert WithMinutes(rows, m) == WithMinutes(g, m);
      WithMinutesPair(rows, m, i, j);
    }
  }

  /** The daily trend's rows: one per day key of the in-range trainings,
      holding that day's total, in ascending key order. */
  function DayRows(ts: seq<Training>, start: Option<Moment>, end: Option<Moment>): (r: seq<Row>)
    ensures DistinctKeys(r) && Ascending(r)
    ensures KeySet(r) == set t | t in InRangeOnly(ts, start, end) :: DayOf(t)
    ensures Sum(r) == Total(InRangeOnly(ts, start, end))
    ensures forall k :: MinutesOf(r, k) == TotalFor(InRangeOnly(ts, start, end), DayOf, k)
  {
    var g := Aggregate(InRangeOnly(ts, start, end), DayOf);
    SortAscKeeps(g);
    SortsKeepEveryKey(g);
    SortAsc(g)
  }

  /** Rows with distinct keys that hold every key's total hold it row by row. */
  lemma RowsHoldTotals(rows: seq<Row>, ts: seq<Training>, key: Training -> string)
    requires DistinctKeys(rows)
    requires forall k :: MinutesOf(rows, k) == TotalFor(ts, key, k)
    ensures forall i | 0 <= i < |rows| :: rows[i].minutes == TotalFor(ts, key, rows[i].key)
  {
    forall i | 0 <= i < |rows| ensures rows[i].minutes == TotalFor(ts, key, rows[i].key) {
      MinutesOfDistinct(rows, i);
    }
  }

  /** Each activity row holds the total of the in-range trainings filed under its key. */
  lemma ActivityRowTotal(ts: seq<Training>, start: Option<Moment>, end: Option<Moment>)
    ensures var rows := ActivityRows(ts, start, end);
              forall i | 0 <= i < |rows| :: rows[i].minutes == TotalFor(InRangeOnly(ts, start, end), ActivityOf, rows[i].key)
  {
    RowsHoldTotals(ActivityRows(ts, start, end), InRangeOnly(ts, start, end), ActivityOf);
  }

  /** Each day row holds the total of the in-range trainings on that day. */
  lemma DayRowTotal(ts: seq<Training>, start: Option<Moment>, end: Option<Moment>)
    ensures var rows := DayRows(ts, start, end);
              forall i | 0 <= i < |rows| :: rows[i].minutes == TotalFor(InRangeOnly(ts, start, end), DayOf, rows[i].key)
  {
    RowsHoldTotals(DayRows(ts, start, end), InRangeOnly(ts, start, end), DayOf);
  }

  /** No minute is lost or counted twice: both charts add up to the same
      total, that of the in-range trainings. */
  lemma Conservation(ts: seq<Training>, start: Option<Moment>, end: Option<Moment>)
    ensures Sum(ActivityRows(ts, start, end)) == Sum(DayRows(ts, start, end))
    ensures Sum(ActivityRows(ts, start, end)) == Total(InRangeOnly(ts, start, end))
  {
  }

  /** Equal totals keep insertion order: Running, met first, stays ahead of Yoga. */
  lemma TiedActivitiesExample()
    ensures Group([Row("Running", 30), Row("Yoga", 30)]) == [Row("Running", 30), Row("Yoga", 30)]
    ensures SortDesc([Row("Running", 30), Row("Yoga", 30)]) == [Row("Running", 30), Row("Yoga", 30)]
  {
    var es := [Row("Running", 30), Row("Yoga", 30)];
    assert es[..1] == [Row("Running", 30)];
    assert es[..1][..0] == [];
    assert "Yoga" != "Running";
  }

  // -------------------------------------------- the page's plain object

  /** The name under which a plain object's prototype is reached. */
  const ProtoKey := "__proto__"

  /** `agg[k] = (agg[k] ?? 0) + m` as the page writes it, on the object
      literal `{}`: for the key `__proto__` the read yields the prototype
      and the assignment of a non-object to it is ignored, so no entry
      appears and the minutes are lost. Every key that is not an
      `Object.prototype` member behaves as `Add`; for the other members
      (`constructor`, `toString`, ...) the page starts from an inherited
      function and stores a string, which this function does not model. */
  function ObjectAdd(rows: seq<Row>, k: string, m: int): (r: seq<Row>)
    ensures k == ProtoKey ==> r == rows
    ensures k != ProtoKey ==> r == Add(rows, k, m)
  {
    if k == ProtoKey then rows else Add(rows, k, m)
  }

  /** The page's activity loop over its object `agg`, for activity names
      that are ordinary keys or `__proto__`. */
  function ObjectGroup(es: seq<Row>): (r: seq<Row>)
    ensures ProtoKey !in KeySet(es) ==> r == Group(es)
  {
    if |es| == 0 then []
    else
      var init := es[..|es| - 1];
      assert ProtoKey !in KeySet(es) ==> ProtoKey !in KeySet(init);
      ObjectAdd(ObjectGroup(init), es[|es| - 1].key, es[|es| - 1].minutes)
  }

  /** The activity rows as the page computes them with its object `agg`,
      for activity names that are ordinary keys or `__proto__`. */
  function ActivityRowsAsWritten(ts: seq<Training>, start: Option<Moment>, end: Option<Moment>): (r: seq<Row>)
    ensures ProtoKey !in (set t | t in InRangeOnly(ts, start, end) :: ActivityOf(t)) ==> r == ActivityRows(ts, start, end)
  {
    var es := Entries(InRangeOnly(ts, start, end), ActivityOf);
    EntriesKeys(InRangeOnly(ts, start, end), ActivityOf);
    SortDesc(ObjectGroup(es))
  }

  /** One 30-minute training whose activity is `__proto__`: the day chart
      counts its minutes, the activity chart as written loses them, so the
      two charts no longer add up to the same total. `ActivityRows`, which
      treats every name as an ordinary key, keeps them (`Conservation`). */
  lemma ProtoActivityLost(d: Moment)
    ensures var ts := [Training(d, Str(ProtoKey), Minutes(30), None, None, None)];
              && Sum(ActivityRowsAsWritten(ts, None, None)) == 0
              && Sum(DayRows(ts, None, None)) == 30
              && Sum(ActivityRows(ts, None, None)) == 30
  {
    var t := Training(d, Str(ProtoKey), Minutes(30), None, None, None);
    var ts := [t];
    assert InRangeOnly(ts, None, None) == ts by {
      assert InRange(d, None, None);
    }
    assert Total(ts) == 30 by {
      assert ts[..0] == [];
    }
    assert Entries(ts, ActivityOf) == [Row(ProtoKey, 30)] by {
      ProtoActivityKey(t);
      assert ts[..0] == [];
    }
    ProtoGroupEmpty();
    Conservation(ts, None, None);
  }

  /** The activity `__proto__` is filed under the key `__proto__`. */
  lemma ProtoActivityKey(t: Training)
    requires t.activity == Str(ProtoKey)
    ensures ActivityOf(t) == ProtoKey
  {
    assert IsTrimmed(ProtoKey);
    ActivityKeyPadded("", ProtoKey, "");
    assert "" + ProtoKey + "" == ProtoKey;
  }

  /** The object as written keeps nothing of a lone `__proto__` entry. */
  lemma ProtoGroupEmpty()
    ensures ObjectGroup([Row(ProtoKey, 30)]) == []
  {
    assert [Row(ProtoKey, 30)][..0] == [];
  }

  // ------------------------------------------------------------- summary

  /** `data.slice(0, 3)`. */
  function Top3(rows: seq<Row>): (r: seq<Row>)
    ensures |r| == (if |rows| < 3 then |rows| else 3)
    ensures r == rows[..|r|]
  {
    if |rows| < 3 then rows else rows[..3]
  }

  lemma {:induction false} NonIncreasingAt(s: seq<Row>, i: nat, j: nat)
    requires NonIncreasing(s) && i <= j < |s|
    ensures s[j].minutes <= s[i].minutes
    decreases j - i
  {
    if i < j {
      NonIncreasingAt(s, i, j - 1);
    }
  }

  /** The cards show the first rows in order, and on sorted rows no hidden
      activity has more minutes than a shown one. */
  lemma TopCardsDominate(rows: seq<Row>)
    requires NonIncreasing(rows)
    ensures forall i, j | 0 <= i < |Top3(rows)| <= j < |rows| :: rows[j].minutes <= Top3(rows)[i].minutes
  {
    forall i, j | 0 <= i < |Top3(rows)| <= j < |rows| ensures rows[j].minutes <= Top3(rows)[i].minutes {
      NonIncreasingAt(rows, i, j);
    }
  }
}

=== FILE: strings.dfy ===
/** The JavaScript string operations the pages rely on: `trim`,
    `toLowerCase`, `includes`, `join`, `split`, rendering an integer in
    decimal, and the `<` / `>` ordering of strings. */
module Strings {
  import opened Values

  // ---------------------------------------------------------------- trim

  /** The code points `String.prototype.trim` removes: ECMAScript WhiteSpace
      (tab, VT, FF, space, NBSP, ZWNBSP and the Zs category) and the four
      LineTerminator code points. */
  predicate IsWhite(c: char)
  {
    || c == '\t' || c == '\n' || c == '\U{000B}' || c == '\U{000C}' || c == '\r'
    || c == ' ' || c == '\U{00A0}' || c == '\U{1680}'
    || ('\U{2000}' <= c <= '\U{200A}')
    || c == '\U{2028}' || c == '\U{2029}' || c == '\U{202F}' || c == '\U{205F}'
    || c == '\U{3000}' || c == '\U{FEFF}'
  }

  predicate AllWhite(s: string)
  {
    forall i | 0 <= i < |s| :: IsWhite(s[i])
  }

  /** Neither end of `s` is white space. */
  predicate IsTrimmed(s: string)
  {
    |s| == 0 || (!IsWhite(s[0]) && !IsWhite(s[|s| - 1]))
  }

  /** `trimStart`: the longest suffix that does not start with white space. */
  function TrimStart(s: string): (r: string)
    ensures |r| <= |s| && s[|s| - |r|..] == r
    ensures AllWhite(s[..|s| - |r|])
    ensures |r| == 0 || !IsWhite(r[0])
  {
    if |s| > 0 && IsWhite(s[0]) then
      var r := TrimStart(s[1..]);
      assert s[..|s| - |r|] == [s[0]] + s[1..][..|s| - 1 - |r|];
      r
    else
      s
  }

  /** `trimEnd`: the longest prefix that does not end with white space. */
  function TrimEnd(s: string): (r: string)
    ensures |r| <= |s| && s[..|r|] == r
    ensures AllWhite(s[|r|..])
    ensures |r| == 0 || !IsWhite(r[|r| - 1])
  {
    if |s| > 0 && IsWhite(s[|s| - 1]) then
      var init := s[..|s| - 1];
      var r := TrimEnd(init);
      assert s[|r|..] == init[|r|..] + [s[|s| - 1]];
      r
    else
      s
  }

  /** `String.prototype.trim`. */
  function Trim(s: string): (r: string)
    ensures IsTrimmed(r)
    ensures |r| == 0 <==> AllWhite(s)
  {
    var t := TrimStart(s);
    var r := TrimEnd(t);
    assert |r| == 0 ==> AllWhite(t[0..]);
    if AllWhite(s) then
      TrimStartPadded(s, "");
      r
    else
      r
  }

  /** `trimStart` removes exactly a white prefix in front of a non-white character. */
  lemma {:induction false} TrimStartPadded(lead: string, rest: string)
    requires AllWhite(lead) && (|rest| == 0 || !IsWhite(rest[0]))
    ensures TrimStart(lead + rest) == rest
    decreases |lead|
  {
    if |lead| > 0 {
      assert (lead + rest)[1..] == lead[1..] + rest;
      TrimStartPadded(lead[1..], rest);
    } else {
      assert lead + rest == rest;
    }
  }

  /** `trimEnd` removes exactly a white suffix after a non-white character. */
  lemma {:induction false} TrimEndPadded(rest: string, trail: string)
    requires AllWhite(trail) && (|rest| == 0 || !IsWhite(rest[|rest| - 1]))
    ensures TrimEnd(rest + trail) == rest
    decreases |trail|
  {
    if |trail| > 0 {
      assert (rest + trail)[..|rest + trail| - 1] == rest + trail[..|trail| - 1];
      TrimEndPadded(rest, trail[..|trail| - 1]);
    } else {
      assert rest + trail == rest;
    }
  }

  /** Trimming strips exactly the white padding around a trimmed core. */
  lemma TrimPadded(lead: string, core: string, trail: string)
    requires AllWhite(lead) && AllWhite(trail) && IsTrimmed(core)
    ensures Trim(lead + core + trail) == core
  {
    if |core| == 0 {
      assert lead + core + trail == lead + trail;
      TrimStartPadded(lead + trail, "");
      assert lead + trail + "" == lead + trail;
    } else {
      assert lead + core + trail == lead + (core + trail);
      TrimStartPadded(lead, core + trail);
      TrimEndPadded(core, trail);
    }
  }

  // -------------------------------------------------------- toLowerCase

  /** `toLowerCase` on one code point: ASCII `A`-`Z` and the Latin-1
      capitals U+00C0..U+00DE other than U+00D7 move up by 32. */
  function LowerChar(c: char): char
  {
    if 'A' <= c <= 'Z' || ('\U{00C0}' <= c <= '\U{00DE}' && c != '\U{00D7}')
    then (c as int + 32) as char
    else c
  }

  /** `String.prototype.toLowerCase`. */
  function Lower(s: string): (r: string)
    ensures |r| == |s|
    ensures forall i | 0 <= i < |s| :: r[i] == LowerChar(s[i])
  {
    if |s| == 0 then [] else [LowerChar(s[0])] + Lower(s[1..])
  }

  lemma LowerIdempotent(s: string)
    ensures Lower(Lower(s)) == Lower(s)
  {
  }

  /** Lower-casing neither creates nor removes white space. */
  lemma LowerKeepsWhite(s: string)
    ensures AllWhite(Lower(s)) <==> AllWhite(s)
  {
  }

  // ----------------------------------------------------------- includes

  /** `t` occurs in `s` starting at index `i`. */
  predicate OccursAt(s: string, t: string, i: int)
  {
    0 <= i && i + |t| <= |s| && s[i..i + |t|] == t
  }

  /** `s.includes(t)`, as a scan over the start positions of `s`. */
  predicate Contains(s: string, t: string)
    decreases |s|
  {
    (|t| <= |s| && s[..|t|] == t) || (|s| > 0 && Contains(s[1..], t))
  }

  /** The scan finds `t` exactly when `t` occurs somewhere in `s`. */
  lemma ContainsIffOccurs(s: string, t: string)
    ensures Contains(s, t) <==> exists i :: OccursAt(s, t, i)
  {
    if Contains(s, t) {
      var i := FoundAt(s, t);
    }
    if i :| OccursAt(s, t, i) {
      OccursFound(s, t, i);
    }
  }

  /** Where the scan finds `t`. */
  lemma {:induction false} FoundAt(s: string, t: string) returns (i: nat)
    requires Contains(s, t)
    ensures OccursAt(s, t, i)
    decreases |s|
  {
    if |t| <= |s| && s[..|t|] == t {
      i := 0;
    } else {
      var j := FoundAt(s[1..], t);
      assert s[1..][j..j + |t|] == s[j + 1..j + 1 + |t|];
      i := j + 1;
    }
  }

  /** The scan reaches every occurrence of `t`. */
  lemma {:induction false} OccursFound(s: string, t: string, i: int)
    requires OccursAt(s, t, i)
    ensures Contains(s, t)
    decreases i
  {
    if i > 0 {
      assert s[1..][i - 1..i - 1 + |t|] == s[i..i + |t|];
      OccursFound(s[1..], t, i - 1);
    } else {
      assert s[..|t|] == t;
    }
  }

  // -------------------------------------------------------- join, split

  /** `parts.join(sep)`. */
  function Join(parts: seq<string>, sep: string): string
  {
    if |parts| == 0 then ""
    else if |parts| == 1 then parts[0]
    else Join(parts[..|parts| - 1], sep) + sep + parts[|parts| - 1]
  }

  /** Joining a leading part onto the rest, the direction a reader consumes text. */
  lemma {:induction false} JoinCons(p: string, parts: seq<string>, sep: string)
    requires |parts| >= 1
    ensures Join([p] + parts, sep) == p + sep + Join(parts, sep)
    decreases |parts|
  {
    var all := [p] + parts;
    if |parts| == 1 {
      assert all[..1] == [p];
    } else {
      var init := parts[..|parts| - 1];
      assert all[..|all| - 1] == [p] + init;
      JoinCons(p, init, sep);
    }
  }

  /** `JoinCons` for a sequence already known to start with `p`. */
  lemma JoinFront(all: seq<string>, p: string, parts: seq<string>, sep: string)
    requires |parts| >= 1 && all == [p] + parts
    ensures Join(all, sep) == p + (sep + Join(parts, sep))
  {
    JoinCons(p, parts, sep);
  }

  /** Joining one more part onto the end. */
  lemma JoinSnoc(parts: seq<string>, p: string, sep: string)
    requires |parts| >= 1
    ensures Join(parts + [p], sep) == Join(parts, sep) + sep + p
  {
    var all := parts + [p];
    assert all[..|all| - 1] == parts;
  }

  /** A character found neither in the parts nor in the separator is not in the joined text. */
  lemma {:induction false} JoinAvoids(parts: seq<string>, sep: string, c: char)
    requires c !in sep
    requires forall i | 0 <= i < |parts| :: c !in parts[i]
    ensures c !in Join(parts, sep)
    decreases |parts|
  {
    if |parts| > 1 {
      JoinAvoids(parts[..|parts| - 1], sep, c);
    }
  }

  /** `s.split(c)` for a one-character separator. */
  function Split(s: string, c: char): (r: seq<string>)
    ensures |r| >= 1
    ensures forall i | 0 <= i < |r| :: c !in r[i]
    ensures Join(r, [c]) == s
  {
    if |s| == 0 then [""]
    else
      var init := Split(s[..|s| - 1], c);
      var last := s[|s| - 1];
      if last == c then
        var r := init + [""];
        assert r[..|r| - 1] == init;
        assert s == s[..|s| - 1] + [last];
        r
      else
        var k := |init| - 1;
        var r := init[..k] + [init[k] + [last]];
        assert s == s[..|s| - 1] + [last];
        assert k > 0 ==> r[..|r| - 1] == init[..k];
        assert k > 0 ==> Join(init, [c]) == Join(init[..k], [c]) + [c] + init[k];
        r
  }

  /** A part without the separator splits to itself. */
  lemma {:induction false} SplitNoSeparator(p: string, c: char)
    requires c !in p
    ensures Split(p, c) == [p]
  {
    var r := Split(p, c);
    if |r| > 1 {
      JoinSeparatorOccurs(r, c);
    }
  }

  /** Joining two or more parts puts the separator into the text. */
  lemma {:induction false} JoinSeparatorOccurs(parts: seq<string>, c: char)
    requires |parts| >= 2
    ensures c in Join(parts, [c])
  {
    var init := Join(parts[..|parts| - 1], [c]);
    assert Join(parts, [c])[|init|] == c;
  }

  /** Appending a separator and a separator-free part appends one field. */
  lemma {:induction false} SplitAppend(s: string, x: string, c: char)
    requires c !in x
    ensures Split(s + [c] + x, c) == Split(s, c) + [x]
    decreases |x|
  {
    var t := s + [c] + x;
    if |x| == 0 {
      assert t[..|t| - 1] == s;
    } else {
      var x' := x[..|x| - 1];
      assert t[..|t| - 1] == s + [c] + x';
      SplitAppend(s, x', c);
      assert x == x' + [x[|x| - 1]];
    }
  }

  /** Splitting undoes joining when no part holds the separator. */
  lemma {:induction false} SplitJoin(parts: seq<string>, c: char)
    requires |parts| >= 1
    requires forall i | 0 <= i < |parts| :: c !in parts[i]
    ensures Split(Join(parts, [c]), c) == parts
    decreases |parts|
  {
    if |parts| == 1 {
      SplitNoSeparator(parts[0], c);
    } else {
      var init := parts[..|parts| - 1];
      SplitJoin(init, c);
      SplitAppend(Join(init, [c]), parts[|parts| - 1], c);
      assert init + [parts[|parts| - 1]] == parts;
    }
  }

  // ------------------------------------------------------ path segments

  /** The text after the last `/` of a link, or the whole link when it has no `/`. */
  function LastSegment(h: string): (r: string)
    ensures |r| <= |h| && h[|h| - |r|..] == r
    ensures '/' !in r
    ensures |r| < |h| ==> h[|h| - |r| - 1] == '/'
  {
    if |h| == 0 || h[|h| - 1] == '/' then ""
    else
      var r := LastSegment(h[..|h| - 1]) + [h[|h| - 1]];
      assert h == h[..|h| - 1] + [h[|h| - 1]];
      r
  }

  /** `LastSegment` is the final element of `h.split('/')`, as `pop()` or
      `parts[parts.length - 1]` reads it. */
  lemma {:induction false} LastSegmentIsLastSplitPart(h: string)
    ensures var parts := Split(h, '/'); LastSegment(h) == parts[|parts| - 1]
  {
    if |h| > 0 {
      var init := Split(h[..|h| - 1], '/');
      LastSegmentIsLastSplitPart(h[..|h| - 1]);
      if h[|h| - 1] != '/' {
        var k := |init| - 1;
        assert Split(h, '/') == init[..k] + [init[k] + [h[|h| - 1]]];
      }
    }
  }

  /** Any suffix with the three properties of `LastSegment` is `LastSegment`. */
  lemma LastSegmentUnique(h: string, r: string)
    requires |r| <= |h| && h[|h| - |r|..] == r
    requires '/' !in r
    requires |r| < |h| ==> h[|h| - |r| - 1] == '/'
    ensures r == LastSegment(h)
  {
  }

  // ------------------------------------------------------------ numbers

  predicate IsDigit(c: char)
  {
    '0' <= c <= '9'
  }

  predicate IsDigits(s: string)
  {
    forall i | 0 <= i < |s| :: IsDigit(s[i])
  }

  /** The regular expression `^[0-9]+$`: one or more decimal digits and nothing else. */
  predicate MatchesDigitsPattern(s: string)
  {
    |s| >= 1 && IsDigits(s)
  }

  function DigitChar(d: nat): (c: char)
    requires d < 10
    ensures IsDigit(c) && c as int - '0' as int == d
  {
    ('0' as int + d) as char
  }

  /** Decimal digits of `n`, most significant first, without leading zeros. */
  function NatToString(n: nat): (r: string)
    ensures MatchesDigitsPattern(r)
    ensures r[0] == '0' ==> n == 0
  {
    if n < 10 then [DigitChar(n)] else NatToString(n / 10) + [DigitChar(n % 10)]
  }

  /** `String(n)` for an integer-valued number below 1e21 in magnitude;
      from 1e21 on JavaScript writes exponent form. */
  function IntToString(n: int): (r: string)
    ensures |r| >= 1
    ensures forall i | 0 <= i < |r| :: r[i] == '-' || IsDigit(r[i])
  {
    if n < 0 then "-" + NatToString(-n) else NatToString(n)
  }

  /** The value of a string of decimal digits. */
  function ParseNat(s: string): nat
    requires IsDigits(s)
  {
    if |s| == 0 then 0 else ParseNat(s[..|s| - 1]) * 10 + (s[|s| - 1] as int - '0' as int)
  }

  /** Reads an optionally negative decimal integer. */
  function ParseInt(s: string): Option<int>
  {
    if |s| >= 2 && s[0] == '-' && IsDigits(s[1..]) then Some(0 - ParseNat(s[1..]))
    else if MatchesDigitsPattern(s) then Some(ParseNat(s))
    else None
  }

  lemma {:induction false} ParseNatToString(n: nat)
    ensures ParseNat(NatToString(n)) == n
  {
    if n >= 10 {
      var s := NatToString(n);
      assert s[..|s| - 1] == NatToString(n / 10);
      ParseNatToString(n / 10);
    }
  }

  /** Reading back the decimal rendering of an integer gives the integer. */
  lemma IntToStringRoundTrip(n: int)
    ensures ParseInt(IntToString(n)) == Some(n)
  {
    if n < 0 {
      var s := IntToString(n);
      assert s[1..] == NatToString(-n);
      ParseNatToString(-n);
    } else {
      ParseNatToString(n);
    }
  }

  // ---------------------------------------------------------- ordering

  /** `a < b` on strings: the first differing code point decides, and a
      proper prefix comes first. */
  predicate StrLess(a: string, b: string)
  {
    |b| > 0 && (|a| == 0 || a[0] < b[0] || (a[0] == b[0] && StrLess(a[1..], b[1..])))
  }

  lemma {:induction false} StrLessIrreflexive(a: string)
    ensures !StrLess(a, a)
  {
    if |a| > 0 {
      StrLessIrreflexive(a[1..]);
    }
  }

  lemma {:induction false} StrLessTransitive(a: string, b: string, c: string)
    requires StrLess(a, b) && StrLess(b, c)
    ensures StrLess(a, c)
  {
    if |a| > 0 && a[0] == b[0] && b[0] == c[0] {
      StrLessTransitive(a[1..], b[1..], c[1..]);
    }
  }

  lemma {:induction false} StrLessTotal(a: string, b: string)
    ensures a == b || StrLess(a, b) || StrLess(b, a)
  {
    if |a| > 0 && |b| > 0 && a[0] == b[0] {
      StrLessTotal(a[1..], b[1..]);
      if a[1..] == b[1..] {
        assert a == [a[0]] + a[1..] && b == [b[0]] + b[1..];
      }
    }
  }
}

=== FILE: training_delete.dfy ===
/** The trainings page's delete button: which value the row hands to the
    delete handler, and how the handler chooses between the by-id endpoint
    and deleting the training's own link. The confirmation answer and the
    outcome of the request are inputs: they come from the user and the
    network. */
module TrainingDelete {
  import opened Values
  import opened Strings
  import opened Records

  /** The value a row passes to the handler: a number, a string, or
      `undefined` when the row has neither an id nor a self link. */
  datatype Target = NumberTarget(n: int) | TextTarget(s: string) | NoTarget

  /** `String(idOrUrl)`, also how the value is written into a URL. */
  function Text(t: Target): string
  {
    match t
    case NumberTarget(n) => IntToString(n)
    case TextTarget(s) => s
    case NoTarget => "undefined"
  }

  /** The action cell's value: the training's `id` when it has one, else the
      last `/`-segment of its self link, else `undefined`. */
  function RowTarget(t: Training): (r: Target)
    ensures t.id.Some? && t.id.value.NumericId? ==> r == NumberTarget(t.id.value.n)
    ensures t.id.Some? && t.id.value.TextId? ==> r == TextTarget(t.id.value.s)
    ensures t.id.None? && t.selfHref.Some? ==>
              var parts := Split(t.selfHref.value, '/'); r == TextTarget(parts[|parts| - 1])
    ensures t.id.None? && t.selfHref.None? ==> r == NoTarget
  {
    match t.id
    case Some(NumericId(n)) => NumberTarget(n)
    case Some(TextId(s)) => TextTarget(s)
    case None =>
      match t.selfHref
      case Some(h) =>
        LastSegmentIsLastSplitPart(h);
        TextTarget(LastSegment(h))
      case None => NoTarget
  }

  /** The request issued: `DELETE .../trainings/<id>` or `DELETE <url>`. */
  datatype Request = ById(id: string) | ByUrl(url: string)

  /** What one click leads to: the request issued, if any, whether the list
      is fetched again, and whether a failure is logged. */
  datatype Outcome = Outcome(request: Option<Request>, refetched: bool, errorLogged: bool)

  /** Uses the by-id endpoint for a number or a text of decimal digits only. */
  predicate GoesById(t: Target)
  {
    t.NumberTarget? || MatchesDigitsPattern(Text(t))
  }

  /** `handleDelete`: nothing happens unless the user confirms; then one
      request is issued, by id for a number or an all-digit text and by URL
      otherwise, and the list is fetched again exactly when it succeeds. */
  function HandleDelete(confirmed: bool, target: Target, succeeds: bool): (o: Outcome)
    ensures !confirmed ==> o == Outcome(None, false, false)
    ensures confirmed ==> o.request.Some? && o.refetched == succeeds && o.errorLogged == !succeeds
    ensures confirmed ==> (o.request.value.ById? <==> GoesById(target))
    ensures o.request.Some? ==>
              (o.request.value.ById? && o.request.value.id == Text(target)) ||
              (o.request.value.ByUrl? && o.request.value.url == Text(target))
  {
    if !confirmed then Outcome(None, false, false)
    else
      var request := if GoesById(target) then ById(Text(target)) else ByUrl(Text(target));
      Outcome(Some(request), succeeds, !succeeds)
  }

  /** The by-id endpoint only ever receives the decimal text of an integer. */
  lemma ByIdIsInteger(confirmed: bool, target: Target, succeeds: bool)
    requires HandleDelete(confirmed, target, succeeds).request.Some?
    requires HandleDelete(confirmed, target, succeeds).request.value.ById?
    ensures ParseInt(HandleDelete(confirmed, target, succeeds).request.value.id).Some?
  {
    if target.NumberTarget? {
      IntToStringRoundTrip(target.n);
    }
  }

  /** A non-negative number and its decimal text are deleted the same way. */
  lemma NumberAndDigitsAgree(n: nat, succeeds: bool)
    ensures HandleDelete(true, NumberTarget(n), succeeds) == HandleDelete(true, TextTarget(IntToString(n)), succeeds)
  {
  }

  /** The empty text, and the `undefined` of a row with neither id nor
      link, both go to the by-URL call. */
  lemma EmptyAndUndefinedGoByUrl(succeeds: bool)
    ensures HandleDelete(true, TextTarget(""), succeeds).request == Some(ByUrl(""))
    ensures HandleDelete(true, NoTarget, succeeds).request == Some(ByUrl("undefined"))
  {
    assert !IsDigit("undefined"[0]);
  }
}

=== FILE: values.dfy ===
/** Loosely typed JavaScript values, as the pages read them out of API records. */
module Values {

  /** The conventional Some/None datatype, used for optional record members. */
  datatype Option<+T> = None | Some(value: T)

  /** A computation that either produces a value or fails with an error. */
  datatype Result<+R, +E> = Success(value: R) | Failure(error: E)

  /** A record member that should hold a string but may be `undefined` or `null`. */
  datatype Value = Undefined | Null | Str(s: string)

  /** `v ?? ''`, and also how `Array.prototype.join` renders a member: both
      turn `null` and `undefined` into the empty string. */
  function OrEmpty(v: Value): string
  {
    match v
    case Str(s) => s
    case _ => ""
  }

  /** How a template literal (or `String(v)`) renders a member: `null` and
      `undefined` are spelled out. */
  function Interpolate(v: Value): string
  {
    match v
    case Undefined => "undefined"
    case Null => "null"
    case Str(s) => s
  }
}
